=== FILE: README.md ===
# wiki-ai response loop and Wikipedia tools, in Dafny

wiki-ai is a chat assistant that discusses Wikipedia articles. A local
language model streams its answer. When the answer is a JSON tool call
instead of prose, the assistant runs one of three tools:

- search Wikipedia;
- scrape an article into a shared directory;
- search the scraped articles.

It then streams the model's follow-up.

This project models two parts of it:

- **`ResponseLoop`** (`response_loop.dfy`): the response generator.
  - `Respond` is a functional reference for one run. A run yields its chunks and fires the `onstart`/`onfinished`/`onerror` callbacks as one interleaved log, and it may extend the conversation context.
  - The methods `ResponseGenerator`, `StreamAnswer`, `HandleToolCall`, `BufferToolCall` and `Forward` follow the source statement by statement. They are proved to produce exactly what `Respond` describes.
  - `LoopProperties` (`loop_properties.dfy`) states what every branch promises.
- **`Registry`** (`registry.dfy`): the tool registry and the tool catalogue embedded in the system prompt.
- **`Scraper`** (`scraper.dfy`): the pure logic of the three tools.
  - Search: the search URL and the result formatting.
  - Add an article: the article-URL check, the article id and title, the infobox dictionary, the directory update and its summary line. `AddArticle` checks the URL against the whole pattern; `AddArticleAsWritten` checks it as `re.match` does (see Findings).
  - Search the directory: the guard and the joining of retrieved passages.

Three supporting modules:

- `Text` (`text.dfy`) models the Python string operations the code uses: `strip`, `startswith`, `replace`, `join` and `rsplit("/", 1)[-1]`. Its `Split` is not a source operation; it reads a newline-joined answer back into lines.
- `Dict` (`dict.dfy`) models a dictionary filled by successive assignments: the last assignment to a key wins, and keys stay in first-insertion order.
- `Wrappers` (`wrappers.dfy`) holds `Option` and `Result`.

How the outside world enters the model:

- **Model streams** are finite sequences of chunk texts. A stream may end in a raised exception: a `json.JSONDecodeError` or any other exception.
  - A failure of the first stream, before or after its first chunk, is caught by the outer `except Exception`. It is reported as `Unexpected error: ...` whatever its kind.
  - The follow-up stream is read inside the `try` whose `except json.JSONDecodeError` guards the tool-call parse. A decode error raised by that stream is therefore reported as `Failed to parse tool call JSON.`, even though the tool already ran. Any other exception is reported as unexpected.
- **JSON parsing** is an arbitrary function `parse`. It returns the tool call, or the exception decoding raised: a decode error, or anything else, such as `RecursionError` for too deep a nesting or `ValueError` for an over-long integer. Every property holds for every parser.
- **Tools** carry their behaviour as a function from arguments to a result or an error message.
- **Fetches, HTML extraction, sentence splitting, embedding and the vector index** enter as their outcomes:
  - a `SearchPage`;
  - a `Page` or a fetch error;
  - an optional index failure;
  - the passages the retriever returns.

The repository's tests call `scraper.search_article`, a name the scraper does not define. The modelled operation is `search_wikipedia_article`.

## Model

| member | source | states |
|---|---|---|
| Registry.Tools | src/service/llm.py:17 | The registry's keys are exactly the registered tool names. Each key maps to a tool of that name. When a name is registered twice the later tool is kept and no error is raised. |
| Registry.NameOrder | src/service/llm.py:17-20 | The order of `tools.values()` lists every registered name exactly once, and only registered names. |
| Registry.ToolsDescription | src/service/llm.py:18-21 | The catalogue has one entry per registered name. Its names are the registry's keys in the dictionary's order. |
| Registry.CatalogueMatchesRegistry | src/service/llm.py:17-21 | The catalogue has one descriptor per registered name, with no name twice. Each descriptor is the name, description and argument schema of the tool the registry dispatches that name to. |
| Registry.RegistrationOrder | src/service/llm.py:17-21 | When all tool names differ, the catalogue describes every tool in registration order. |
| Text.Strip | src/service/llm.py:89 | The stripped text neither starts nor ends with whitespace. It is empty exactly when the text is all whitespace. |
| Text.StripIsInfix | src/service/llm.py:89 | The stripped text is the text itself with only a whitespace prefix and a whitespace suffix removed. Together with `Text.Strip`'s non-space ends, this fixes the result to what `str.strip()` returns. |
| Text.StripStartsWith | src/service/llm.py:89 | `s.strip().startswith(c)` holds for a non-space `c` exactly when the first non-whitespace character of `s` is `c`. |
| ResponseLoop.Respond | src/service/llm.py:79-139 | Every run's callback trace is one of: nothing; a single `onerror`; or `onstart` followed by `onfinished` or by `onerror`. |
| ResponseLoop.ResponseGenerator | src/service/llm.py:57-139 | The generator's log of yielded chunks and callbacks, and its final context, are exactly those of the reference run `Respond`, on every branch. This includes which of the two handlers reports a stream failure. |
| ResponseLoop.StreamAnswer | src/service/llm.py:131-136 | The prose branch yields the first chunk, then the later non-empty chunks, then any failure report, exactly as the reference describes. |
| ResponseLoop.HandleToolCall | src/service/llm.py:95-129 | Dispatching a buffered tool call produces exactly the reference outcome: a parse error for a decode error, an unexpected-error report for any other exception decoding raises, an unknown tool, a failed tool, or a successful tool with its follow-up. The follow-up ends in `onfinished`, a parse-error report for a decode error, or an unexpected-error report. |
| ResponseLoop.BufferToolCall | src/service/llm.py:89-93 | The buffer ends up as the concatenation of all chunks of the stream. |
| ResponseLoop.Forward | src/service/llm.py:133-136 | Forwarding a stream yields exactly its non-empty chunks, in order, and fires no callback. |
| LoopProperties.QuietRunDoesNothing | src/service/llm.py:81-84 | An empty stream, or one whose first chunk is empty, yields nothing, fires nothing and leaves the context unchanged. |
| LoopProperties.EarlyFailureReported | src/service/llm.py:138-139 | A stream that fails before its first chunk produces exactly one `onerror("Unexpected error: ...")`. |
| LoopProperties.DirectAnswerForwards | src/service/llm.py:131-136 | A prose answer yields its first chunk and then every later non-empty chunk in order. Every entry but possibly the last is a chunk. A failure is reported only at the end. The context is unchanged. |
| LoopProperties.DirectAnswerText | src/service/llm.py:131-136 | When the prose stream completes, the yielded text joined together is the stream's whole text, and no callback fires. |
| LoopProperties.HelloWorld | test/test_llm.py:5-15 | Chunks `Hello` and ` world` in reply to `Hi` yield text that joins to `Hello world`. |
| LoopProperties.BufferIsWholeStream | src/service/llm.py:89-93 | The tool-call buffer is the first chunk followed by the later non-empty chunks, which is the stream's whole text. |
| LoopProperties.ToolPayloadNeverYielded | src/service/llm.py:88-129 | In a tool request the payload is never yielded. The first log entry is a callback. The only chunks yielded are the follow-up's non-empty chunks, and they appear only when the context grew. |
| LoopProperties.BufferingFailureReported | src/service/llm.py:88-93 | A stream that fails while the tool call is being buffered is reported once as an unexpected error. The tool never starts. |
| LoopProperties.ParseFailureReported | src/service/llm.py:95-129 | A payload whose decoding raises a decode error fires exactly `onerror("Failed to parse tool call JSON.")`. The context is unchanged. |
| LoopProperties.DecodeCrashReported | src/service/llm.py:95-139 | A payload whose decoding raises anything else escapes the parse handler. It fires exactly `onerror("Unexpected error: " + message)` from the outer handler. The context is unchanged. |
| LoopProperties.UnknownToolReported | src/service/llm.py:125-126 | An unregistered or missing tool name fires exactly `onerror("Unknown tool requested: <name>")`, where a missing name prints as `None`. The tool does not start. |
| LoopProperties.BogusToolScenario | src/service/llm.py:96-126 | The payload `{"tool": "bogus"}` with no tool of that name reports `Unknown tool requested: bogus`. |
| LoopProperties.ToolFailureReported | src/service/llm.py:100-108 | A registered tool that raises produces `onstart(name)` and then `onerror("Tool execution failed: <reason>")`. There is no `onfinished`, no output, and the context is unchanged. |
| LoopProperties.ToolSuccessFollowsUp | src/service/llm.py:110-139 | A successful tool appends the raw payload as an assistant message and the result as a system message. The run is then `onstart`, the follow-up's non-empty chunks, and one of three endings. A completed follow-up ends in `onfinished`. A decode error in the follow-up stream ends in `onerror("Failed to parse tool call JSON.")`. Any other failure ends in `onerror("Unexpected error: ...")`. The appended entries are kept in every case. |
| LoopProperties.ContextGrowsOnlyAfterToolRan | src/service/llm.py:110-117 | The context changes exactly when a registered tool ran and returned. It then grows by two entries and keeps the old context as a prefix. |
| LoopProperties.TraceProtocol | src/service/llm.py:100-129 | An allowed trace has at most one error. `onstart` can only come first. `onfinished` can only come last, right after `onstart`, with no error before it. |
| LoopProperties.RunTraceProtocol | src/service/llm.py:79-139 | No run reports two errors, and no run finishes without having started a tool. |
| Scraper.SearchUrl | src/service/scraper.py:54 | The search URL is the language edition's search prefix, then the keyword with every space turned into `+` and nothing else changed, then `&ns0=1`. |
| Scraper.SearchKeywordRecoverable | src/service/scraper.py:54 | A keyword without `+` can be read back from its search URL by turning `+` into spaces. |
| Scraper.SearchResults | src/service/scraper.py:57-67 | A redirected search returns the final URL. An empty result page returns `No results found.`. Otherwise the answer starts with the first hit's `Title : URL` line. |
| Scraper.SearchResultsJoins | src/service/scraper.py:63-67 | A result page's answer is its hits' lines joined with newlines. A single hit gives its own line. One more hit extends the answer by a newline and that hit's line. |
| Scraper.SearchResultsLines | src/service/scraper.py:63-67 | When no hit spans several lines, splitting the answer at newlines gives back one `Title : URL` line per hit, in page order. |
| Scraper.ListingIsNotNoResults | src/service/scraper.py:67 | A result page with hits never answers `No results found.`. |
| Scraper.ValidArticleUrl | src/config.py:10 | An accepted URL is non-empty and ends in an article-name character, never in a newline. |
| Scraper.ValidArticleUrlMatches | src/config.py:10 | The article-URL check accepts exactly the URLs that are `https://`, a 2-3 letter lower-case language code, `.wikipedia.org/wiki/`, and a non-empty article name. |
| Scraper.UrlParts | src/config.py:10 | Every URL built from a language code and an article name passes the check. |
| Text.LastSegment | src/service/scraper.py:132 | `url.rsplit("/", 1)[-1]` is a suffix of the URL without `/`. It is either the whole URL or preceded by a `/`. |
| Scraper.Title | src/service/scraper.py:133 | The title is as long as the id and has no underscore left. An id without spaces is recovered from its title by turning spaces back into underscores. |
| Scraper.ArticleIdOfUrl | src/service/scraper.py:132 | The article id of such a URL is exactly its article name. |
| Scraper.ValidUrlArticleId | src/service/scraper.py:132-133 | An accepted URL has a non-empty id with no `/`, made of article-name characters. Its title turns back into the id when spaces become underscores. |
| Scraper.UrlMatchesAsWritten | src/service/scraper.py:105 | A URL the check as written accepts is non-empty and ends in an article-name character or a newline. |
| Scraper.TrailingNewlineAccepted | src/service/scraper.py:105-106 | The check as written (`re.match` with `$`) lets `https://en.wikipedia.org/wiki/Cat` followed by a newline through. That URL's id is `Cat` plus a newline, which is not an article name. The full match refuses it. |
| Scraper.Infobox | src/service/scraper.py:121-129 | The infobox has a key exactly for each header of a row that has both a header and a value cell. Each value comes from such a row with that header. |
| Scraper.InfoboxSnoc | src/service/scraper.py:124-129 | Reading one more row sets or overwrites its key only when the row is complete, so the last row with a given header wins. |
| Scraper.AddArticle | src/service/scraper.py:103-152 | With the URL checked against the whole pattern: a successful add marks the store built and appends exactly one title. A failed add leaves the title list and the store flag unchanged. A failed fetch fails and leaves the directory exactly as it was. Only the new article's id can be added to `data`. |
| Scraper.AddArticleAsWritten | src/service/scraper.py:103-152 | With the URL checked as `re.match` does, the add behaves exactly as `AddArticle` on every URL that does not end in a newline. A failed add leaves the title list and the store flag unchanged. A failed fetch fails and leaves the directory exactly as it was. Only the new article's id can be added to `data`. |
| Scraper.FetchAndStore | src/service/scraper.py:108-152 | Once the URL is accepted: a successful add marks the store built and appends exactly one title. A failed fetch, an article without content or a failed index build leaves the title list and the store flag unchanged. A failed fetch returns its own error and leaves the directory exactly as it was. Only the URL's id can be added to `data`. |
| Scraper.AddArticleRejectsInvalidUrl | src/service/scraper.py:105-106 | Under the full-match check, a URL that does not match the pattern raises `Invalid Wikipedia URL: <url>` and changes nothing. |
| Scraper.AsWrittenRejectsInvalidUrl | src/service/scraper.py:105-106 | Under the check as written, a URL is refused with `Invalid Wikipedia URL: <url>`, changing nothing, when it matches the pattern neither as it is nor without one final newline. |
| Scraper.NonWikipediaUrlRejected | test/test_scraper.py:38-40 | `https://google.com/not_wiki` is refused and the directory is unchanged. |
| Scraper.AddArticleNeedsContent | src/service/scraper.py:112-118 | A page whose paragraphs are all empty raises `No article content found.` and stores nothing. |
| Scraper.AddArticleStores | src/service/scraper.py:132-152 | A successful add stores the id, the title, the non-empty paragraphs and the infobox under the URL's last segment. Every other entry is unchanged. The title is appended to the list even when already listed. The result is the joined list. |
| Scraper.AddArticleSummaryExtends | src/service/scraper.py:151-152 | With titles already listed, the returned summary is the previous list, then `, `, then the new title. |
| Scraper.AddArticleIndexFailure | src/service/scraper.py:137-148 | When building the vector store raises, the article is already in `data`. Its title is not listed and the old store remains. |
| Scraper.AddArticlePreservesConsistency | src/service/scraper.py:105-152 | Under the full-match check, every add, successful or not, keeps the directory consistent. Each key is an article name whose entry carries the title derived from it. Each listed title belongs to a stored article. A store exists exactly when some title is listed. |
| Scraper.AsWrittenPreservesCoherence | src/service/scraper.py:105-152 | Under the check as written, every add keeps the directory coherent. Each key is free of `/` and its entry carries the title derived from it. Each listed title belongs to a stored article. A store exists exactly when some title is listed. Keys need not be article names. |
| Scraper.StoreKeepsCoherence | src/service/scraper.py:108-152 | Everything after the URL check keeps the directory coherent. |
| Scraper.EntryKeepsCoherence | src/service/scraper.py:137-141 | Storing an entry under a key without `/`, with the title derived from that key, keeps the directory coherent. |
| Scraper.ListKeepsCoherence | src/service/scraper.py:146-151 | Listing the title of a stored article while building the store keeps the directory coherent. |
| Scraper.NewlineIdStored | src/service/scraper.py:105-152 | Under the check as written, `https://en.wikipedia.org/wiki/Cat` followed by a newline is accepted. The article is stored under the id `Cat` plus a newline, so the directory is no longer consistent. The full-match check refuses the URL and changes nothing. |
| Scraper.EmptyDirectoryConsistent | src/main.py:6-12 | The initial directory is consistent: no data, no titles, no store. |
| Scraper.SearchInArticle | src/service/scraper.py:170-175 | Searching fails with `No articles available. Please add one first.` exactly when no store exists. Otherwise it returns the retrieved passages joined with spaces, starting with the first. |
| Scraper.SearchInArticleJoins | src/service/scraper.py:174-175 | With a store built, no passage gives the empty answer and one passage gives that passage. Each further passage extends the answer by a space and that passage. |
| Scraper.SearchAvailableAfterAdd | src/service/scraper.py:171-172 | In a consistent directory, searching fails exactly when no article is listed. After a successful add it always succeeds. |

## Left out

- HTTP requests, headers and timeouts: the response enters as a `SearchPage` or as a `Page` or fetch error.
- HTML extraction by BeautifulSoup/lxml: link texts, hrefs, stripped paragraph texts and infobox cells enter already extracted.
  - A hit without `href` raises `KeyError` in the source; this is not modelled.
  - Row cells are `None` exactly when the row lacks a `th` or a `td` cell. A bs4 tag is truthy even when it has no content, so an empty cell enters as the empty string.
- Sentence splitting, `json.dumps` of the directory, Ollama embeddings and the FAISS retriever: only their failure (`indexFailure`) and the passages the retriever returns (`retrieved`) are modelled. `RETRIEVER_K` is therefore not modelled.
- The ChatOllama client: each model stream is a given finite sequence of chunks with an optional failure.
- Generator laziness: the consumer stopping early, backpressure, and the caller's list being mutated in place. The model describes a complete run and returns the new context.
- Callbacks that themselves raise: callbacks are recorded as events and assumed not to raise.
- `json.loads` internals: `parse` is arbitrary, and which payloads raise which exception is not modelled. It only ever sees a buffer whose first non-whitespace character is `{`, and `json.loads` skips only JSON's own whitespace, so every payload it accepts is an object and `tool_call.get` cannot fail on a non-object.
- Non-string `tool` values and non-string argument values: `ToolCall` carries an optional string name and string arguments.
- LangChain's tool wrapper (argument validation, building descriptions from docstrings): each tool's behaviour is a given function, and its description and schema are given strings.
- The system-prompt prose: only the catalogue that is embedded in it is modelled.
- Streamlit pages and session keys other than `data`, `article_in_directory` and `vector_store`: the chat and article pages, `messages` and `is_tool_called`.
- Scraper.AddArticle: checks the URL against the whole pattern, which is the evidently intended check (see Findings). The source's own check lets one trailing newline through; that behaviour is `Scraper.AddArticleAsWritten`.
- Scraper.AddArticleRejectsInvalidUrl: states rejection for the full-match check. The rejection the source performs is `Scraper.AsWrittenRejectsInvalidUrl`.
- Scraper.AddArticlePreservesConsistency: holds for the full-match check only. Under the source's check, keys can end in a newline and so need not be article names; what survives is `Scraper.AsWrittenPreservesCoherence`.
- Scraper.IsWordChar: `\w` is modelled as ASCII letters, digits and underscore. Python's `\w` on text also matches non-ASCII letters and digits, so the model refuses some article URLs (for example ones with accented names) that the source accepts.

## Findings

| source | as written | input that shows it | evidently intended | confidence | as-written member | corrected member |
|---|---|---|---|---|---|---|
| src/service/scraper.py:105 | `re.match(WIKI_URL_PATTERN, url)` where the pattern ends in `$`. In Python `$` also matches just before a final newline, so a URL with one trailing newline passes the check. | `https://en.wikipedia.org/wiki/Cat` followed by a newline passes. The article id becomes `Cat` plus a newline, which is not an article name. | The anchors `^…$` ask for the whole URL to match, as `re.fullmatch` would check. The model's `ValidArticleUrl` is that full match, `AddArticle` uses it, and only article names become keys. | medium; not executed | Scraper.NewlineIdStored | Scraper.AddArticlePreservesConsistency |

=== FILE: dict.dfy ===
/** A Python `dict` filled by successive `d[k] = v` assignments, and the
    order in which it remembers its keys. */
module Dict {

  /** The dictionary after assigning every entry in turn: a key is present
      when some entry names it, and holds the value of the LAST such entry. */
  function Assign<K, V>(entries: seq<(K, V)>): (m: map<K, V>)
    ensures m.Keys == KeySet(entries)
    ensures forall i :: 0 <= i < |entries| && IsLastFor(entries, i) ==> m[entries[i].0] == entries[i].1
  {
    if |entries| == 0 then map[]
    else
      var last := entries[|entries| - 1];
      var prior := entries[..|entries| - 1];
      assert entries == prior + [last];
      AssignStep(prior, last, Assign(prior));
      Assign(prior)[last.0 := last.1]
  }

  /** One assignment more: what holds of the dictionary built from
      `prior` holds, after assigning `last`, of `prior + [last]`. */
  lemma AssignStep<K, V>(prior: seq<(K, V)>, last: (K, V), m: map<K, V>)
    requires m.Keys == KeySet(prior)
    requires forall i :: 0 <= i < |prior| && IsLastFor(prior, i) ==> m[prior[i].0] == prior[i].1
    ensures var es := prior + [last];
      var m' := m[last.0 := last.1];
      && m'.Keys == KeySet(es)
      && forall i :: 0 <= i < |es| && IsLastFor(es, i) ==> m'[es[i].0] == es[i].1
  {
    var es := prior + [last];
    assert es[..|prior|] == prior;
    KeySetSnoc(es);
    var m' := m[last.0 := last.1];
    forall i | 0 <= i < |es| && IsLastFor(es, i)
      ensures m'[es[i].0] == es[i].1
    {
      if i < |prior| {
        assert es[i] == prior[i];
        assert es[|prior|] == last;
        assert IsLastFor(prior, i);
      }
    }
  }

  /** The keys the entries name. */
  function KeySet<K, V>(entries: seq<(K, V)>): set<K> {
    set i | 0 <= i < |entries| :: entries[i].0
  }

  lemma KeySetSnoc<K, V>(entries: seq<(K, V)>)
    requires |entries| > 0
    ensures KeySet(entries) == KeySet(entries[..|entries| - 1]) + {entries[|entries| - 1].0}
  {
    var prior := entries[..|entries| - 1];
    forall k | k in KeySet(entries)
      ensures k in KeySet(prior) + {entries[|entries| - 1].0}
    {
      var i :| 0 <= i < |entries| && entries[i].0 == k;
      if i < |prior| {
        assert prior[i] == entries[i];
      }
    }
    forall k | k in KeySet(prior)
      ensures k in KeySet(entries)
    {
      var i :| 0 <= i < |prior| && prior[i].0 == k;
      assert entries[i] == prior[i];
    }
  }

  /** No entry after position `i` assigns the key that entry `i` assigns. */
  predicate IsLastFor<K(==), V>(entries: seq<(K, V)>, i: nat)
    requires i < |entries|
  {
    forall j :: i < j < |entries| ==> entries[j].0 != entries[i].0
  }

  /** Every key that occurs has a last occurrence. */
  lemma LastOccurrence<K, V>(es: seq<(K, V)>, i: nat)
    requires i < |es|
    ensures exists j :: i <= j < |es| && es[j].0 == es[i].0 && IsLastFor(es, j)
    decreases |es| - i
  {
    if !IsLastFor(es, i) {
      var j :| i < j < |es| && es[j].0 == es[i].0;
      LastOccurrence(es, j);
    }
  }

  /** Assigning one more entry overrides just that key. */
  lemma AssignSnoc<K, V>(entries: seq<(K, V)>, k: K, v: V)
    ensures Assign(entries + [(k, v)]) == Assign(entries)[k := v]
  {
    assert (entries + [(k, v)])[..|entries|] == entries;
  }

  /** The keys in the order the dictionary first saw them (the order of
      `d.keys()`): re-assigning a key does not move it. */
  function KeyOrder<K(==), V>(entries: seq<(K, V)>): (ks: seq<K>)
    ensures forall a, b :: 0 <= a < b < |ks| ==> ks[a] != ks[b]
    ensures Elements(ks) == KeySet(entries)
  {
    if |entries| == 0 then []
    else
      var prior := entries[..|entries| - 1];
      var ks := KeyOrder(prior);
      var k := entries[|entries| - 1].0;
      KeySetSnoc(entries);
      ElementsSnoc(ks, k);
      if k in ks then ks else ks + [k]
  }

  /** The elements of a sequence, as a set. */
  function Elements<T>(s: seq<T>): set<T> {
    set a | 0 <= a < |s| :: s[a]
  }

  lemma ElementsSnoc<T>(s: seq<T>, x: T)
    ensures Elements(s + [x]) == Elements(s) + {x}
    ensures x in s ==> Elements(s) + {x} == Elements(s)
  {
    var t := s + [x];
    assert t[|s|] == x;
    forall y | y in Elements(t)
      ensures y in Elements(s) + {x}
    {
      var a :| 0 <= a < |t| && t[a] == y;
      if a < |s| {
        assert s[a] == y;
      }
    }
    forall y | y in Elements(s)
      ensures y in Elements(t)
    {
      var a :| 0 <= a < |s| && s[a] == y;
      assert t[a] == y;
    }
    if x in s {
      var a :| 0 <= a < |s| && s[a] == x;
      assert x in Elements(s);
      assert Elements(s) + {x} == Elements(s);
    }
  }

  /** With no key repeated, the dictionary keeps the entries' own order. */
  lemma {:induction false} KeyOrderDistinct<K, V>(entries: seq<(K, V)>)
    requires forall a, b :: 0 <= a < b < |entries| ==> entries[a].0 != entries[b].0
    ensures KeyOrder(entries) == seq(|entries|, i requires 0 <= i < |entries| => entries[i].0)
  {
    if |entries| > 0 {
      var prior := entries[..|entries| - 1];
      KeyOrderDistinct(prior);
      var k := entries[|entries| - 1].0;
      assert k !in KeyOrder(prior);
    }
  }
}

=== FILE: loop_properties.dfy ===
/** What every run of the response loop promises, branch by branch. */
module LoopProperties {
  import opened Wrappers
  import opened Text
  import Registry
  import opened ResponseLoop

  /** The model said nothing: no chunk at all, or an empty first chunk. */
  predicate Quiet(first: Stream) {
    || (|first.chunks| == 0 && first.failure.None?)
    || (|first.chunks| > 0 && first.chunks[0] == "")
  }

  /** The first chunk is a direct answer. */
  predicate IsDirect(first: Stream) {
    |first.chunks| > 0 && first.chunks[0] != "" && !OpensToolCall(first.chunks[0])
  }

  /** The first chunk opens a tool call. */
  predicate IsToolRequest(first: Stream) {
    |first.chunks| > 0 && OpensToolCall(first.chunks[0])
  }

  /** The whole first stream arrived and parsed to a call of a registered tool. */
  predicate KnownToolCalled(first: Stream, parse: string -> Result<ToolCall, Raised>, tools: map<string, Registry.Tool>) {
    && IsToolRequest(first)
    && first.failure.None?
    && parse(Concat(first.chunks)).Success?
    && parse(Concat(first.chunks)).value.tool.Some?
    && parse(Concat(first.chunks)).value.tool.value in tools
  }

  /** The tool named by the call ran and returned a result. */
  predicate ToolSucceeded(first: Stream, parse: string -> Result<ToolCall, Raised>, tools: map<string, Registry.Tool>) {
    && KnownToolCalled(first, parse, tools)
    && var call := parse(Concat(first.chunks)).value;
       tools[call.tool.value].invoke(call.args).Success?
  }

  /** An empty model response ends the run silently: nothing is yielded, no
      callback fires and the context is unchanged. */
  lemma QuietRunDoesNothing(
    ctx: seq<Message>, first: Stream, parse: string -> Result<ToolCall, Raised>,
    tools: map<string, Registry.Tool>, followUp: seq<Message> -> Stream)
    requires Quiet(first)
    ensures Respond(ctx, first, parse, tools, followUp) == Run([], ctx)
  {
  }

  /** A stream that fails before its first chunk is reported once, as an
      unexpected error, and nothing else happens. */
  lemma EarlyFailureReported(
    ctx: seq<Message>, first: Stream, parse: string -> Result<ToolCall, Raised>,
    tools: map<string, Registry.Tool>, followUp: seq<Message> -> Stream)
    requires |first.chunks| == 0 && first.failure.Some?
    ensures Respond(ctx, first, parse, tools, followUp)
         == Run([Signal(Error("Unexpected error: " + first.failure.value.msg))], ctx)
  {
  }

  /** A direct answer forwards the first chunk and then every later
      non-empty chunk, in order, before any callback; the only callback is
      the report of a stream failure, and the context is unchanged. */
  lemma DirectAnswerForwards(
    ctx: seq<Message>, first: Stream, parse: string -> Result<ToolCall, Raised>,
    tools: map<string, Registry.Tool>, followUp: seq<Message> -> Stream)
    requires IsDirect(first)
    ensures var r := Respond(ctx, first, parse, tools, followUp);
      && Yielded(r.log) == [first.chunks[0]] + NonEmpty(first.chunks[1..])
      && Events(r.log) == (if first.failure.None? then [] else [Error("Unexpected error: " + first.failure.value.msg)])
      && (forall i :: 0 <= i < |r.log| - 1 ==> r.log[i].Chunk?)
      && r.context == ctx
  {
    var texts := [first.chunks[0]] + NonEmpty(first.chunks[1..]);
    var r := Respond(ctx, first, parse, tools, followUp);
    assert r == DirectAnswer(ctx, first);
    assert r.log == Chunks(texts) + Transport(first.failure);
    EventsOfForwarded(texts, Transport(first.failure));
    assert |Transport(first.failure)| <= 1;
    forall i | 0 <= i < |r.log| - 1
      ensures r.log[i].Chunk?
    {
      assert i < |texts|;
      assert r.log[i] == Chunks(texts)[i];
    }
  }

  /** A direct answer shows the caller exactly the text the model produced. */
  lemma DirectAnswerText(
    ctx: seq<Message>, first: Stream, parse: string -> Result<ToolCall, Raised>,
    tools: map<string, Registry.Tool>, followUp: seq<Message> -> Stream)
    requires IsDirect(first) && first.failure.None?
    ensures var r := Respond(ctx, first, parse, tools, followUp);
      Concat(Yielded(r.log)) == Concat(first.chunks) && Events(r.log) == []
  {
    DirectAnswerForwards(ctx, first, parse, tools, followUp);
    var c := first.chunks;
    ConcatAppend([c[0]], NonEmpty(c[1..]));
    ConcatNonEmpty(c[1..]);
    assert c == [c[0]] + c[1..];
    ConcatAppend([c[0]], c[1..]);
  }

  /** The plain-text scenario: "Hello" then " world" reads "Hello world". */
  lemma HelloWorld(
    parse: string -> Result<ToolCall, Raised>, tools: map<string, Registry.Tool>,
    followUp: seq<Message> -> Stream)
    ensures var ctx := [Message(User, "Hi")];
      var r := Respond(ctx, Stream(["Hello", " world"], None), parse, tools, followUp);
      Concat(Yielded(r.log)) == "Hello world" && Events(r.log) == [] && r.context == ctx
  {
    var first := Stream(["Hello", " world"], None);
    ProseChunk("Hello");
    assert IsDirect(first);
    DirectAnswerText([Message(User, "Hi")], first, parse, tools, followUp);
    HelloWorldText();
  }

  /** A chunk with no whitespace at either end that does not start with
      `{` does not open a tool call. */
  lemma ProseChunk(s: string)
    requires |s| > 0 && !IsSpace(s[0]) && !IsSpace(s[|s| - 1]) && s[0] != '{'
    ensures !OpensToolCall(s)
  {
    StripUnpadded(s);
    assert s[..1] != "{";
  }

  lemma HelloWorldText()
    ensures Concat(["Hello", " world"]) == "Hello world"
  {
    var cs := ["Hello", " world"];
    assert cs[1..] == [" world"] && cs[1..][1..] == [];
    var joined := "Hello" + " world";
    assert Concat(cs) == joined;
    forall i | 0 <= i < |joined|
      ensures joined[i] == "Hello world"[i]
    {
    }
  }

  /** The tool-call buffer is the first chunk followed by every later
      non-empty chunk: all of the stream's text. */
  lemma BufferIsWholeStream(chunks: seq<string>)
    requires |chunks| > 0
    ensures Concat(chunks) == chunks[0] + Concat(NonEmpty(chunks[1..]))
  {
    ConcatNonEmpty(chunks[1..]);
  }

  /** In a tool request the payload is never shown: the first output is a
      callback, and the only chunks yielded are those of the follow-up
      stream, which exists only when the tool ran and the context grew. */
  lemma ToolPayloadNeverYielded(
    ctx: seq<Message>, first: Stream, parse: string -> Result<ToolCall, Raised>,
    tools: map<string, Registry.Tool>, followUp: seq<Message> -> Stream)
    requires IsToolRequest(first)
    ensures var r := Respond(ctx, first, parse, tools, followUp);
      && |r.log| > 0 && r.log[0].Signal?
      && Yielded(r.log) == (if r.context == ctx then [] else NonEmpty(followUp(r.context).chunks))
  {
    var r := Respond(ctx, first, parse, tools, followUp);
    if ToolSucceeded(first, parse, tools) {
      ToolSuccessFollowsUp(ctx, first, parse, tools, followUp);
      var second := followUp(r.context);
      var tail := FollowUpEnd(second.failure);
      YieldedAppend([Signal(Start(parse(Concat(first.chunks)).value.tool.value))], Chunks(NonEmpty(second.chunks)) + tail);
      EventsOfForwarded(NonEmpty(second.chunks), tail);
      assert |r.context| == |ctx| + 2;
    } else if KnownToolCalled(first, parse, tools) {
      var call := parse(Concat(first.chunks)).value;
      var a := Signal(Start(call.tool.value));
      var b := Signal(Error(ExecutionFailed(tools[call.tool.value].invoke(call.args).error)));
      ToolFailureReported(ctx, first, parse, tools, followUp);
      assert r.log == [a] + [b];
      YieldedAppend([a], [b]);
    } else {
      var e := SingleReport(ctx, first, parse, tools, followUp);
      assert r.log == [Signal(Error(e))];
    }
  }

  /** A tool request that does not reach a registered tool ends in one
      error report and leaves the context alone. */
  lemma SingleReport(
    ctx: seq<Message>, first: Stream, parse: string -> Result<ToolCall, Raised>,
    tools: map<string, Registry.Tool>, followUp: seq<Message> -> Stream)
    returns (e: string)
    requires IsToolRequest(first) && !KnownToolCalled(first, parse, tools)
    ensures Respond(ctx, first, parse, tools, followUp) == Run([Signal(Error(e))], ctx)
  {
    if first.failure.Some? {
      BufferingFailureReported(ctx, first, parse, tools, followUp);
      e := Unexpected(first.failure.value.msg);
    } else if parse(Concat(first.chunks)).Failure? && parse(Concat(first.chunks)).error.JsonDecode? {
      ParseFailureReported(ctx, first, parse, tools, followUp);
      e := ParseError;
    } else if parse(Concat(first.chunks)).Failure? {
      DecodeCrashReported(ctx, first, parse, tools, followUp);
      e := Unexpected(parse(Concat(first.chunks)).error.msg);
    } else {
      UnknownToolReported(ctx, first, parse, tools, followUp);
      e := UnknownTool(parse(Concat(first.chunks)).value.tool);
    }
  }

  /** A stream that fails while the tool call is being buffered is reported
      once, as an unexpected error: the tool never starts. */
  lemma BufferingFailureReported(
    ctx: seq<Message>, first: Stream, parse: string -> Result<ToolCall, Raised>,
    tools: map<string, Registry.Tool>, followUp: seq<Message> -> Stream)
    requires IsToolRequest(first) && first.failure.Some?
    ensures Respond(ctx, first, parse, tools, followUp)
         == Run([Signal(Error("Unexpected error: " + first.failure.value.msg))], ctx)
  {
  }

  /** A payload that is not JSON is reported once as a parse failure,
      nothing is yielded and the context is unchanged. */
  lemma ParseFailureReported(
    ctx: seq<Message>, first: Stream, parse: string -> Result<ToolCall, Raised>,
    tools: map<string, Registry.Tool>, followUp: seq<Message> -> Stream)
    requires IsToolRequest(first) && first.failure.None?
    requires parse(Concat(first.chunks)).Failure? && parse(Concat(first.chunks)).error.JsonDecode?
    ensures Respond(ctx, first, parse, tools, followUp)
         == Run([Signal(Error("Failed to parse tool call JSON."))], ctx)
  {
  }

  /** Decoding that raises anything but a decode error (a payload nested
      too deep, an integer too long) escapes the parse handler: it is
      reported once by the outer handler as unexpected, nothing is yielded
      and the context is unchanged. */
  lemma DecodeCrashReported(
    ctx: seq<Message>, first: Stream, parse: string -> Result<ToolCall, Raised>,
    tools: map<string, Registry.Tool>, followUp: seq<Message> -> Stream)
    requires IsToolRequest(first) && first.failure.None?
    requires parse(Concat(first.chunks)).Failure? && parse(Concat(first.chunks)).error.Other?
    ensures Respond(ctx, first, parse, tools, followUp)
         == Run([Signal(Error("Unexpected error: " + parse(Concat(first.chunks)).error.msg))], ctx)
  {
  }

  /** A call of an unregistered (or missing) tool name is reported once
      with that name; the tool never starts, nothing is yielded and the
      context is unchanged. */
  lemma UnknownToolReported(
    ctx: seq<Message>, first: Stream, parse: string -> Result<ToolCall, Raised>,
    tools: map<string, Registry.Tool>, followUp: seq<Message> -> Stream)
    requires IsToolRequest(first) && first.failure.None?
    requires parse(Concat(first.chunks)).Success?
    requires var call := parse(Concat(first.chunks)).value;
      call.tool.None? || call.tool.value !in tools
    ensures var call := parse(Concat(first.chunks)).value;
      Respond(ctx, first, parse, tools, followUp)
        == Run([Signal(Error("Unknown tool requested: " + ShowTool(call.tool)))], ctx)
  {
  }

  /** The unknown-tool scenario: a call of `bogus` reports
      "Unknown tool requested: bogus". */
  lemma BogusToolScenario(
    ctx: seq<Message>, parse: string -> Result<ToolCall, Raised>,
    tools: map<string, Registry.Tool>, followUp: seq<Message> -> Stream)
    requires "bogus" !in tools
    requires parse("{\"tool\": \"bogus\"}") == Success(ToolCall(Some("bogus"), map[]))
    ensures Respond(ctx, Stream(["{\"tool\": \"bogus\"}"], None), parse, tools, followUp)
         == Run([Signal(Error("Unknown tool requested: bogus"))], ctx)
  {
    var first := Stream(["{\"tool\": \"bogus\"}"], None);
    var s := first.chunks[0];
    assert s[0] == '{' && s[..0] == [];
    StripStartsWith(s, '{');
    assert OpensToolCall(s);
    assert Concat(first.chunks) == s + Concat([]);
    assert Concat(first.chunks) == s;
    assert IsToolRequest(first);
    UnknownToolReported(ctx, first, parse, tools, followUp);
    assert parse(Concat(first.chunks)).value.tool == Some("bogus");
    assert "Unknown tool requested: " + ShowTool(Some("bogus")) == "Unknown tool requested: bogus";
  }

  /** A registered tool that raises: `onstart` then `onerror` with the
      reason, nothing yielded, no `onfinished`, context unchanged. */
  lemma ToolFailureReported(
    ctx: seq<Message>, first: Stream, parse: string -> Result<ToolCall, Raised>,
    tools: map<string, Registry.Tool>, followUp: seq<Message> -> Stream)
    requires KnownToolCalled(first, parse, tools)
    requires var call := parse(Concat(first.chunks)).value;
      tools[call.tool.value].invoke(call.args).Failure?
    ensures var call := parse(Concat(first.chunks)).value;
      var reason := tools[call.tool.value].invoke(call.args).error;
      Respond(ctx, first, parse, tools, followUp)
        == Run([Signal(Start(call.tool.value)), Signal(Error("Tool execution failed: " + reason))], ctx)
  {
  }

  /** A registered tool that returns: the context grows by exactly the raw
      payload (assistant) and the result (system); the run is `onstart`,
      then the follow-up stream's non-empty chunks in order, then
      `onfinished` once, or the report of the follow-up stream's failure:
      a decode error raised by that stream is reported as a parse failure
      even though the tool already ran, anything else as unexpected. */
  lemma ToolSuccessFollowsUp(
    ctx: seq<Message>, first: Stream, parse: string -> Result<ToolCall, Raised>,
    tools: map<string, Registry.Tool>, followUp: seq<Message> -> Stream)
    requires ToolSucceeded(first, parse, tools)
    ensures var call := parse(Concat(first.chunks)).value;
      var name := call.tool.value;
      var result := tools[name].invoke(call.args).value;
      var r := Respond(ctx, first, parse, tools, followUp);
      var second := followUp(r.context);
      && r.context == ctx + [Message(Assistant, Concat(first.chunks)),
                             Message(System, "Follow up with result: " + result)]
      && r.log == [Signal(Start(name))] + Chunks(NonEmpty(second.chunks))
                  + (if second.failure.None? then [Signal(Finished)]
                     else if second.failure.value.JsonDecode? then [Signal(Error("Failed to parse tool call JSON."))]
                     else [Signal(Error("Unexpected error: " + second.failure.value.msg))])
  {
  }

  /** The context changes exactly when the tool ran and returned, and then
      only by the two follow-up entries. */
  lemma ContextGrowsOnlyAfterToolRan(
    ctx: seq<Message>, first: Stream, parse: string -> Result<ToolCall, Raised>,
    tools: map<string, Registry.Tool>, followUp: seq<Message> -> Stream)
    ensures var r := Respond(ctx, first, parse, tools, followUp);
      && (r.context != ctx <==> ToolSucceeded(first, parse, tools))
      && (r.context == ctx || (|r.context| == |ctx| + 2 && r.context[..|ctx|] == ctx))
  {
    var r := Respond(ctx, first, parse, tools, followUp);
    if ToolSucceeded(first, parse, tools) {
      ToolSuccessFollowsUp(ctx, first, parse, tools, followUp);
      assert |r.context| == |ctx| + 2;
    } else {
      ContextKept(ctx, first, parse, tools, followUp);
    }
  }

  /** Unless a registered tool ran and returned, the context is unchanged. */
  lemma ContextKept(
    ctx: seq<Message>, first: Stream, parse: string -> Result<ToolCall, Raised>,
    tools: map<string, Registry.Tool>, followUp: seq<Message> -> Stream)
    requires !ToolSucceeded(first, parse, tools)
    ensures Respond(ctx, first, parse, tools, followUp).context == ctx
  {
    var c := first.chunks;
    if |c| == 0 || c[0] == "" {
      assert Respond(ctx, first, parse, tools, followUp).context == ctx;
    } else if !OpensToolCall(c[0]) {
      assert Respond(ctx, first, parse, tools, followUp) == DirectAnswer(ctx, first);
    } else if KnownToolCalled(first, parse, tools) {
      ToolFailureReported(ctx, first, parse, tools, followUp);
    } else {
      var e := SingleReport(ctx, first, parse, tools, followUp);
    }
  }

  /** Reading the trace shapes: at most one error, `onstart` only first,
      and `onfinished` only last, right after `onstart`, with no error
      before it. */
  lemma TraceProtocol(es: seq<Event>)
    requires TraceShape(es)
    ensures forall i, j :: 0 <= i < j < |es| ==> !(es[i].Error? && es[j].Error?)
    ensures forall i :: 0 <= i < |es| && es[i].Start? ==> i == 0
    ensures forall i :: 0 <= i < |es| && es[i].Finished? ==>
      i == |es| - 1 && i > 0 && es[0].Start? && forall j :: 0 <= j < i ==> !es[j].Error?
  {
  }

  /** Every run ends with one of the allowed callback traces. */
  lemma RunTraceProtocol(
    ctx: seq<Message>, first: Stream, parse: string -> Result<ToolCall, Raised>,
    tools: map<string, Registry.Tool>, followUp: seq<Message> -> Stream)
    ensures var es := Events(Respond(ctx, first, parse, tools, followUp).log);
      && (forall i, j :: 0 <= i < j < |es| ==> !(es[i].Error? && es[j].Error?))
      && (forall i :: 0 <= i < |es| && es[i].Finished? ==> i > 0 && es[0].Start?)
  {
    TraceProtocol(Events(Respond(ctx, first, parse, tools, followUp).log));
  }
}

=== FILE: registry.dfy ===
/** The tool registry: the `tools` dictionary keyed by tool name and the
    `tools_description` list embedded in the system prompt. */
module Registry {
  import opened Wrappers
  import Dict

  /** The arguments a tool call carries, by parameter name. */
  type Args = map<string, string>

  /** A tool: its name, its docstring, its argument schema (parameter name
      to type name) and what invoking it with some arguments returns or the
      message of what it raises. */
  datatype Tool = Tool(
    name: string,
    description: string,
    params: map<string, string>,
    invoke: Args -> Result<string, string>)

  /** One entry of the catalogue embedded in the system prompt. */
  datatype Descriptor = Descriptor(name: string, description: string, params: map<string, string>)

  function Describe(t: Tool): Descriptor {
    Descriptor(t.name, t.description, t.params)
  }

  /** The `name: tool` pairs of the dictionary comprehension, in order. */
  function Entries(ts: seq<Tool>): (es: seq<(string, Tool)>)
    ensures |es| == |ts|
    ensures forall i :: 0 <= i < |ts| ==> es[i] == (ts[i].name, ts[i])
  {
    seq(|ts|, i requires 0 <= i < |ts| => (ts[i].name, ts[i]))
  }

  /** No later tool in `ts` reuses the name of tool `i`. */
  predicate LastNamed(ts: seq<Tool>, i: nat)
    requires i < |ts|
  {
    forall j :: i < j < |ts| ==> ts[j].name != ts[i].name
  }

  /** `{t.name: t for t in ts}`: every registered name is a key, each key
      maps to a tool of that name, and a name registered twice keeps the
      later tool (no duplicate error is raised). */
  function Tools(ts: seq<Tool>): (m: map<string, Tool>)
    ensures m.Keys == set i | 0 <= i < |ts| :: ts[i].name
    ensures forall i :: 0 <= i < |ts| && LastNamed(ts, i) ==> m[ts[i].name] == ts[i]
    ensures forall n :: n in m ==> m[n].name == n
  {
    var es := Entries(ts);
    var m := Dict.Assign(es);
    assert forall i :: 0 <= i < |ts| && LastNamed(ts, i) ==> Dict.IsLastFor(es, i);
    assert Dict.KeySet(es) == set i | 0 <= i < |ts| :: ts[i].name;
    assert forall n :: n in m ==> m[n].name == n by {
      forall n | n in m
        ensures m[n].name == n
      {
        var i :| 0 <= i < |es| && es[i].0 == n;
        Dict.LastOccurrence(es, i);
      }
    }
    m
  }

  /** The registered names in the order the dictionary keeps them. */
  function NameOrder(ts: seq<Tool>): (ns: seq<string>)
    ensures forall a, b :: 0 <= a < b < |ns| ==> ns[a] != ns[b]
    ensures forall a :: 0 <= a < |ns| ==> ns[a] in Tools(ts)
    ensures forall n :: n in Tools(ts) ==> n in ns
  {
    var order := Dict.KeyOrder(Entries(ts));
    assert Dict.Elements(order) == Tools(ts).Keys;
    assert forall a :: 0 <= a < |order| ==> order[a] in Dict.Elements(order);
    order
  }

  /** `[{name, description, args} for tool in tools.values()]`: one entry
      per registered name, in the dictionary's order, each describing the
      tool registered under that name. */
  function ToolsDescription(ts: seq<Tool>): (ds: seq<Descriptor>)
    ensures |ds| == |NameOrder(ts)|
    ensures forall a :: 0 <= a < |ds| ==> ds[a].name == NameOrder(ts)[a]
  {
    var ns := NameOrder(ts);
    var m := Tools(ts);
    DescribedNames(m, ns);
    seq(|ns|, a requires 0 <= a < |ns| => Describe(m[ns[a]]))
  }

  /** Describing the tools a name-keyed registry holds under `ns` gives
      back the names `ns`. */
  lemma DescribedNames(m: map<string, Tool>, ns: seq<string>)
    requires forall a :: 0 <= a < |ns| ==> ns[a] in m
    requires forall n :: n in m ==> m[n].name == n
    ensures forall a :: 0 <= a < |ns| ==> Describe(m[ns[a]]).name == ns[a]
  {
  }

  /** The catalogue holds one descriptor per registered name, no name twice,
      each describing the tool the registry dispatches that name to. */
  lemma CatalogueMatchesRegistry(ts: seq<Tool>)
    ensures |ToolsDescription(ts)| == |Tools(ts)|
    ensures forall a, b :: 0 <= a < b < |ToolsDescription(ts)| ==>
      ToolsDescription(ts)[a].name != ToolsDescription(ts)[b].name
    ensures forall a :: 0 <= a < |ToolsDescription(ts)| ==>
      var d := ToolsDescription(ts)[a]; d.name in Tools(ts) && d == Describe(Tools(ts)[d.name])
    ensures forall n :: n in Tools(ts) ==>
      exists a :: 0 <= a < |ToolsDescription(ts)| && ToolsDescription(ts)[a].name == n
  {
    CatalogueNames(ts);
    CatalogueDescribes(ts);
    var ns := NameOrder(ts);
    assert Dict.Elements(ns) == Tools(ts).Keys;
    DistinctCard(ns, Tools(ts).Keys);
  }

  /** Each catalogue entry describes the tool registered under its name. */
  lemma CatalogueDescribes(ts: seq<Tool>)
    ensures forall a :: 0 <= a < |ToolsDescription(ts)| ==>
      var d := ToolsDescription(ts)[a]; d.name in Tools(ts) && d == Describe(Tools(ts)[d.name])
  {
    var m := Tools(ts);
    var ns := NameOrder(ts);
    var ds := ToolsDescription(ts);
    forall a | 0 <= a < |ds|
      ensures ds[a].name in m && ds[a] == Describe(m[ds[a].name])
    {
      assert ds[a] == Describe(m[ns[a]]);
      assert m[ns[a]].name == ns[a];
    }
  }

  /** The catalogue's names are the registry's key order. */
  lemma CatalogueNames(ts: seq<Tool>)
    ensures |ToolsDescription(ts)| == |NameOrder(ts)|
    ensures forall a :: 0 <= a < |NameOrder(ts)| ==> ToolsDescription(ts)[a].name == NameOrder(ts)[a]
    ensures forall n :: n in Tools(ts) ==>
      exists a :: 0 <= a < |ToolsDescription(ts)| && ToolsDescription(ts)[a].name == n
  {
    var ns := NameOrder(ts);
    var ds := ToolsDescription(ts);
    forall n | n in Tools(ts)
      ensures exists a :: 0 <= a < |ds| && ds[a].name == n
    {
      var a :| 0 <= a < |ns| && ns[a] == n;
      assert ds[a].name == n;
    }
  }

  /** A sequence without repetitions is as long as the set of its elements. */
  lemma {:induction false} DistinctCard<T>(s: seq<T>, elems: set<T>)
    requires forall a, b :: 0 <= a < b < |s| ==> s[a] != s[b]
    requires Dict.Elements(s) == elems
    ensures |s| == |elems|
  {
    if |s| > 0 {
      var prior := s[..|s| - 1];
      var x := s[|s| - 1];
      assert s == prior + [x];
      Dict.ElementsSnoc(prior, x);
      assert x !in Dict.Elements(prior) by {
        forall a | 0 <= a < |prior|
          ensures prior[a] != x
        {
          assert prior[a] == s[a];
        }
      }
      DistinctCard(prior, Dict.Elements(prior));
    } else {
      assert elems == {};
    }
  }

  /** When every tool has its own name, the catalogue lists them all, in
      registration order. */
  lemma RegistrationOrder(ts: seq<Tool>)
    requires forall a, b :: 0 <= a < b < |ts| ==> ts[a].name != ts[b].name
    ensures ToolsDescription(ts) == seq(|ts|, i requires 0 <= i < |ts| => Describe(ts[i]))
  {
    var es := Entries(ts);
    Dict.KeyOrderDistinct(es);
    assert forall i :: 0 <= i < |ts| ==> LastNamed(ts, i);
  }
}

=== FILE: response_loop.dfy ===
/** The tool-calling response loop: one run of `response_generator` over a
    finite model stream, returning everything it yields and every callback
    it fires, interleaved in the order they happen, together with the
    conversation it leaves behind. */
module ResponseLoop {
  import opened Wrappers
  import opened Text
  import Registry

  datatype Role = System | User | Assistant

  datatype Message = Message(role: Role, content: string)

  /** A lifecycle callback: `onstart(name)`, `onfinished()`, `onerror(reason)`. */
  datatype Event = Start(name: string) | Finished | Error(reason: string)

  /** What the generator produces, in order: a yielded chunk or a callback. */
  datatype Output = Chunk(text: string) | Signal(event: Event)

  /** A parsed tool call: the `tool` field (absent when the object has no
      such key) and the `args` field (the parser supplies `{}` when absent). */
  datatype ToolCall = ToolCall(tool: Option<string>, args: Registry.Args)

  /** An exception raised while pulling from a stream or while decoding a
      tool call: a `json.JSONDecodeError`, or any other exception (decoding
      raises `RecursionError` for too deep a nesting and `ValueError` for an
      over-long integer), with the message `str(e)` gives. */
  datatype Raised = JsonDecode(msg: string) | Other(msg: string)

  /** A model stream: the contents of the chunks it delivers, then either a
      normal end or the exception raised on the next pull (a failure before
      any chunk models `chat.stream` itself failing). */
  datatype Stream = Stream(chunks: seq<string>, failure: Option<Raised>)

  /** The result of one run: the interleaved outputs and the final context. */
  datatype Run = Run(log: seq<Output>, context: seq<Message>)

  const ParseError: string := "Failed to parse tool call JSON."

  /** Python renders a missing tool name as `None`. */
  function ShowTool(tool: Option<string>): string {
    match tool
    case None => "None"
    case Some(n) => n
  }

  function UnknownTool(tool: Option<string>): string {
    "Unknown tool requested: " + ShowTool(tool)
  }

  function ExecutionFailed(reason: string): string {
    "Tool execution failed: " + reason
  }

  function Unexpected(reason: string): string {
    "Unexpected error: " + reason
  }

  function FollowUp(result: string): string {
    "Follow up with result: " + result
  }

  /** The first chunk opens a tool call: stripped, it starts with `{`. */
  predicate OpensToolCall(chunk: string) {
    StartsWith(Strip(chunk), "{")
  }

  /** The outputs of forwarding `texts` to the caller. */
  function Chunks(texts: seq<string>): (out: seq<Output>)
    ensures |out| == |texts|
    ensures forall i :: 0 <= i < |texts| ==> out[i] == Chunk(texts[i])
  {
    seq(|texts|, i requires 0 <= i < |texts| => Chunk(texts[i]))
  }

  /** What the outer `except Exception` adds when the stream ended in a
      failure: every kind of exception is reported as unexpected. */
  function Transport(failure: Option<Raised>): seq<Output> {
    match failure
    case None => []
    case Some(e) => [Signal(Error(Unexpected(e.msg)))]
  }

  /** The report of an exception raised inside the `try` around the tool
      call (decoding the payload, or reading the follow-up stream): its
      `except json.JSONDecodeError` catches a decode error as a parse
      failure, and any other exception reaches the outer handler. */
  function Caught(e: Raised): Event {
    match e
    case JsonDecode(_) => Error(ParseError)
    case Other(m) => Error(Unexpected(m))
  }

  /** How the follow-up stream ends: `onfinished`, or the report of its
      failure. */
  function FollowUpEnd(failure: Option<Raised>): seq<Output> {
    match failure
    case None => [Signal(Finished)]
    case Some(e) => [Signal(Caught(e))]
  }

  /** The yielded chunks of a log. */
  function Yielded(log: seq<Output>): seq<string> {
    if |log| == 0 then []
    else (if log[0].Chunk? then [log[0].text] else []) + Yielded(log[1..])
  }

  /** The callbacks of a log. */
  function Events(log: seq<Output>): seq<Event> {
    if |log| == 0 then []
    else (if log[0].Signal? then [log[0].event] else []) + Events(log[1..])
  }

  /** The context after a successful tool call: the raw payload as an
      assistant message, then the result as a system message. */
  function WithToolResult(ctx: seq<Message>, buffer: string, result: string): seq<Message> {
    ctx + [Message(Assistant, buffer), Message(System, FollowUp(result))]
  }

  /** One run of the response loop.  `parse` stands for `json.loads`
      followed by reading the `tool` and `args` fields: the call, or the
      exception decoding raised; `tools` is the registry, and `followUp` is the stream the
      model produces for the extended context. */
  function Respond(
    ctx: seq<Message>,
    first: Stream,
    parse: string -> Result<ToolCall, Raised>,
    tools: map<string, Registry.Tool>,
    followUp: seq<Message> -> Stream): (r: Run)
    ensures TraceShape(Events(r.log))
  {
    var c := first.chunks;
    if |c| == 0 then
      TransportRun(ctx, first.failure)
    else if c[0] == "" then
      Run([], ctx)
    else if !OpensToolCall(c[0]) then
      DirectAnswer(ctx, first)
    else if first.failure.Some? then
      TransportRun(ctx, first.failure)
    else
      CallTool(ctx, Concat(c), parse, tools, followUp)
  }

  /** A run that ends, without output, in the outer `except` or not at all. */
  function TransportRun(ctx: seq<Message>, failure: Option<Raised>): (r: Run)
    ensures TraceShape(Events(r.log))
  {
    Run(Transport(failure), ctx)
  }

  /** The normal assistant response branch: the first chunk and every later
      non-empty chunk are yielded, then the stream's failure, if any, is
      reported. */
  function DirectAnswer(ctx: seq<Message>, first: Stream): (r: Run)
    requires |first.chunks| > 0
    ensures TraceShape(Events(r.log))
  {
    var texts := [first.chunks[0]] + NonEmpty(first.chunks[1..]);
    EventsOfForwarded(texts, Transport(first.failure));
    Run(Chunks(texts) + Transport(first.failure), ctx)
  }

  /** The tool invocation branch once the whole stream is in `buffer`. */
  function CallTool(
    ctx: seq<Message>,
    buffer: string,
    parse: string -> Result<ToolCall, Raised>,
    tools: map<string, Registry.Tool>,
    followUp: seq<Message> -> Stream): (r: Run)
    ensures TraceShape(Events(r.log))
  {
    match parse(buffer)
    case Failure(e) => Run([Signal(Caught(e))], ctx)
    case Success(call) =>
      if call.tool.None? || call.tool.value !in tools then
        Run([Signal(Error(UnknownTool(call.tool)))], ctx)
      else
        var name := call.tool.value;
        match tools[name].invoke(call.args)
        case Failure(e) =>
          EventsAppend([Signal(Start(name))], [Signal(Error(ExecutionFailed(e)))]);
          Run([Signal(Start(name))] + [Signal(Error(ExecutionFailed(e)))], ctx)
        case Success(result) =>
          FollowUpRun(WithToolResult(ctx, buffer, result), name, followUp)
  }

  /** After a successful tool call: `onstart` has fired, the follow-up
      stream over the extended context is forwarded, then `onfinished`
      fires, or one of the two handlers reports the stream's failure. */
  function FollowUpRun(ctx': seq<Message>, name: string, followUp: seq<Message> -> Stream): (r: Run)
    ensures TraceShape(Events(r.log))
  {
    var second := followUp(ctx');
    var tail := FollowUpEnd(second.failure);
    EventsOfForwarded(NonEmpty(second.chunks), tail);
    EventsAppend([Signal(Start(name))], Chunks(NonEmpty(second.chunks)) + tail);
    Run([Signal(Start(name))] + (Chunks(NonEmpty(second.chunks)) + tail), ctx')
  }

  /** The callback traces a run can end with. */
  predicate TraceShape(es: seq<Event>) {
    || es == []
    || (|es| == 1 && es[0].Error?)
    || (|es| == 2 && es[0].Start? && (es[1].Finished? || es[1].Error?))
  }

  // ----- Projections of a log -----

  lemma {:induction false} YieldedAppend(a: seq<Output>, b: seq<Output>)
    ensures Yielded(a + b) == Yielded(a) + Yielded(b)
  {
    if |a| == 0 {
      assert a + b == b;
    } else {
      var head := if a[0].Chunk? then [a[0].text] else [];
      assert (a + b)[0] == a[0] && (a + b)[1..] == a[1..] + b;
      assert Yielded(a + b) == head + Yielded(a[1..] + b);
      YieldedAppend(a[1..], b);
      assert Yielded(a) == head + Yielded(a[1..]);
    }
  }

  lemma {:induction false} EventsAppend(a: seq<Output>, b: seq<Output>)
    ensures Events(a + b) == Events(a) + Events(b)
  {
    if |a| == 0 {
      assert a + b == b;
    } else {
      var head := if a[0].Signal? then [a[0].event] else [];
      assert (a + b)[0] == a[0] && (a + b)[1..] == a[1..] + b;
      assert Events(a + b) == head + Events(a[1..] + b);
      EventsAppend(a[1..], b);
      assert Events(a) == head + Events(a[1..]);
    }
  }

  /** Forwarded chunks are yielded as they are and fire no callback. */
  lemma {:induction false} ChunksProject(texts: seq<string>)
    ensures Yielded(Chunks(texts)) == texts
    ensures Events(Chunks(texts)) == []
  {
    if |texts| > 0 {
      assert Chunks(texts)[1..] == Chunks(texts[1..]);
      ChunksProject(texts[1..]);
    }
  }

  lemma EventsOfForwarded(texts: seq<string>, tail: seq<Output>)
    ensures Events(Chunks(texts) + tail) == Events(tail)
    ensures Yielded(Chunks(texts) + tail) == texts + Yielded(tail)
  {
    EventsAppend(Chunks(texts), tail);
    YieldedAppend(Chunks(texts), tail);
    ChunksProject(texts);
  }

  lemma ChunksAppend(a: seq<string>, b: seq<string>)
    ensures Chunks(a + b) == Chunks(a) + Chunks(b)
  {
  }

  // ----- The loop as the source writes it -----

  /** `for chunk in stream: if chunk.content: yield chunk.content`. */
  method Forward(chunks: seq<string>) returns (out: seq<Output>)
    ensures Yielded(out) == NonEmpty(chunks)
    ensures Events(out) == []
    ensures out == Chunks(NonEmpty(chunks))
  {
    out := [];
    var i := 0;
    while i < |chunks|
      invariant 0 <= i <= |chunks|
      invariant out == Chunks(NonEmpty(chunks[..i]))
    {
      var chunk := chunks[i];
      assert chunks[..i + 1] == chunks[..i] + [chunk];
      NonEmptyAppend(chunks[..i], [chunk]);
      ChunksAppend(NonEmpty(chunks[..i]), NonEmpty([chunk]));
      if chunk != "" {
        out := out + [Chunk(chunk)];
      }
      i := i + 1;
    }
    assert chunks[..i] == chunks;
    ChunksProject(NonEmpty(chunks));
  }

  /** `buffer = first_content; for chunk in stream: if chunk.content:
      buffer += chunk.content`. */
  method BufferToolCall(chunks: seq<string>) returns (buffer: string)
    requires |chunks| > 0
    ensures buffer == Concat(chunks)
  {
    buffer := chunks[0];
    var i := 1;
    while i < |chunks|
      invariant 1 <= i <= |chunks|
      invariant buffer == Concat(chunks[..i])
    {
      var chunk := chunks[i];
      assert chunks[..i + 1] == chunks[..i] + [chunk];
      ConcatAppend(chunks[..i], [chunk]);
      if chunk != "" {
        buffer := buffer + chunk;
      }
      i := i + 1;
    }
    assert chunks[..i] == chunks;
  }

  /** `response_generator`, statement by statement: the tool-call buffer is
      grown chunk by chunk, callbacks are recorded where they are called,
      and the context is extended in place. */
  method ResponseGenerator(
    ctx: seq<Message>,
    first: Stream,
    parse: string -> Result<ToolCall, Raised>,
    tools: map<string, Registry.Tool>,
    followUp: seq<Message> -> Stream)
    returns (log: seq<Output>, context: seq<Message>)
    ensures Run(log, context) == Respond(ctx, first, parse, tools, followUp)
  {
    if |first.chunks| == 0 {
      // `next(stream, None)` found nothing, or the request itself failed
      log, context := Transport(first.failure), ctx;
      assert Run(log, context) == TransportRun(ctx, first.failure);
      return;
    }
    var firstContent := first.chunks[0];
    if firstContent == "" {
      log, context := [], ctx;
      return;
    }
    if OpensToolCall(firstContent) {
      var buffer := BufferToolCall(first.chunks);
      if first.failure.Some? {
        log, context := Transport(first.failure), ctx;
        assert Run(log, context) == TransportRun(ctx, first.failure);
        return;
      }
      log, context := HandleToolCall(ctx, buffer, parse, tools, followUp);
      assert Run(log, context) == CallTool(ctx, Concat(first.chunks), parse, tools, followUp);
    } else {
      log, context := StreamAnswer(ctx, first);
    }
  }

  /** The prose branch: `yield first_content`, then forward the rest.  It
      has no loop of its own: the loop and its invariant are in `Forward`. */
  method StreamAnswer(ctx: seq<Message>, first: Stream) returns (log: seq<Output>, context: seq<Message>)
    requires |first.chunks| > 0
    ensures Run(log, context) == DirectAnswer(ctx, first)
  {
    var firstContent := first.chunks[0];
    var rest := Forward(first.chunks[1..]);
    ChunksAppend([firstContent], NonEmpty(first.chunks[1..]));
    log, context := [Chunk(firstContent)] + rest + Transport(first.failure), ctx;
  }

  /** The part of `response_generator` after the buffer is complete, one
      statement per step of the source: parse, look up, `onstart`, invoke,
      extend the context, forward the follow-up stream (through `Forward`,
      which holds the loop), then `onfinished` or the report of whichever
      handler catches the stream's failure. */
  method HandleToolCall(
    ctx: seq<Message>,
    buffer: string,
    parse: string -> Result<ToolCall, Raised>,
    tools: map<string, Registry.Tool>,
    followUp: seq<Message> -> Stream)
    returns (log: seq<Output>, context: seq<Message>)
    ensures Run(log, context) == CallTool(ctx, buffer, parse, tools, followUp)
  {
    context := ctx;
    var call := parse(buffer);
    if call.Failure? && call.error.JsonDecode? {
      // the inner `except json.JSONDecodeError`
      log := [Signal(Error(ParseError))];
      return;
    } else if call.Failure? {
      // the outer `except Exception`
      log := [Signal(Error(Unexpected(call.error.msg)))];
      return;
    }
    var toolName := call.value.tool;
    if toolName.None? || toolName.value !in tools {
      log := [Signal(Error(UnknownTool(toolName)))];
      return;
    }
    var name := toolName.value;
    log := [Signal(Start(name))];
    var result := tools[name].invoke(call.value.args);
    if result.Failure? {
      log := log + [Signal(Error(ExecutionFailed(result.error)))];
      return;
    }
    context := context + [Message(Assistant, buffer)];
    context := context + [Message(System, FollowUp(result.value))];
    assert context == WithToolResult(ctx, buffer, result.value);
    var second := followUp(context);
    var forwarded := Forward(second.chunks);
    var tail;
    if second.failure.None? {
      tail := [Signal(Finished)];
    } else if second.failure.value.JsonDecode? {
      // the inner `except json.JSONDecodeError`
      tail := [Signal(Error(ParseError))];
    } else {
      // the outer `except Exception`
      tail := [Signal(Error(Unexpected(second.failure.value.msg)))];
    }
    log := log + (forwarded + tail);
    assert Run(log, context) == FollowUpRun(context, name, followUp);
  }
}

=== FILE: scraper.dfy ===
/** The pure logic of the three scraper tools: `search_wikipedia_article`,
    `add_wikipedia_article` and `searh_in_article`.  What the network, the
    HTML parser and the vector index produce is passed in. */
module Scraper {
  import opened Wrappers
  import opened Text
  import Dict

  // ----- search_wikipedia_article -----

  const Scheme: string := "https://"
  const SearchPath: string := ".wikipedia.org/w/index.php?search="
  const SearchTail: string := "&ns0=1"
  const NoResults: string := "No results found."

  /** The start of the search URL for a language edition. */
  function SearchPrefix(lang: string): string {
    Scheme + lang + SearchPath
  }

  /** The search URL: the language edition's search page with the keyword,
      spaces turned into `+`, as the query. */
  function SearchUrl(lang: string, keyword: string): (url: string)
    ensures |url| == |SearchPrefix(lang)| + |keyword| + |SearchTail|
    ensures StartsWith(url, SearchPrefix(lang))
    ensures url[|url| - |SearchTail|..] == SearchTail
    ensures var q := SearchQuery(lang, url);
      && |q| == |keyword|
      && ' ' !in q
      && forall i :: 0 <= i < |keyword| ==> q[i] == (if keyword[i] == ' ' then '+' else keyword[i])
  {
    var q := ReplaceChar(keyword, ' ', '+');
    ReplaceCharRemoves(keyword, ' ', '+');
    var url := SearchPrefix(lang) + q + SearchTail;
    assert url[|SearchPrefix(lang)|..|url| - |SearchTail|] == q;
    url
  }

  /** The query part of a search URL. */
  function SearchQuery(lang: string, url: string): string
    requires |SearchPrefix(lang)| + |SearchTail| <= |url|
  {
    url[|SearchPrefix(lang)|..|url| - |SearchTail|]
  }

  /** A keyword without `+` can be read back from its search URL. */
  lemma SearchKeywordRecoverable(lang: string, keyword: string)
    requires '+' !in keyword
    ensures ReplaceChar(SearchQuery(lang, SearchUrl(lang, keyword)), '+', ' ') == keyword
  {
    var url := SearchUrl(lang, keyword);
    assert url[|SearchPrefix(lang)|..|url| - |SearchTail|] == ReplaceChar(keyword, ' ', '+');
    ReplaceCharInverse(keyword, ' ', '+');
  }

  /** One search hit: the link text and its `href`. */
  datatype Link = Link(text: string, href: string)

  /** The search response: redirected straight to an article (the final
      URL), or a result page with its hits in page order. */
  datatype SearchPage = Redirected(finalUrl: string) | Listing(links: seq<Link>)

  function ResultLine(lang: string, link: Link): string {
    link.text + " : https://" + lang + ".wikipedia.org" + link.href
  }

  function ResultLines(lang: string, links: seq<Link>): (lines: seq<string>)
    ensures |lines| == |links|
    ensures forall i :: 0 <= i < |links| ==> lines[i] == ResultLine(lang, links[i])
  {
    seq(|links|, i requires 0 <= i < |links| => ResultLine(lang, links[i]))
  }

  /** What `search_wikipedia_article` returns once the page is fetched. */
  function SearchResults(lang: string, page: SearchPage): (r: string)
    ensures page.Redirected? ==> r == page.finalUrl
    ensures page.Listing? && |page.links| == 0 ==> r == NoResults
    ensures page.Listing? && |page.links| > 0 ==> StartsWith(r, ResultLine(lang, page.links[0]))
  {
    match page
    case Redirected(u) => u
    case Listing(links) =>
      if |links| == 0 then NoResults
      else
        JoinStartsWith(ResultLines(lang, links), "\n");
        Join(ResultLines(lang, links), "\n")
  }

  /** A result page's answer splits back into one `Title : URL` line per
      hit, in page order, when no hit spans several lines. */
  lemma SearchResultsLines(lang: string, links: seq<Link>)
    requires |links| > 0
    requires '\n' !in lang
    requires forall i :: 0 <= i < |links| ==> '\n' !in links[i].text && '\n' !in links[i].href
    ensures Split(SearchResults(lang, Listing(links)), '\n') == ResultLines(lang, links)
  {
    var lines := ResultLines(lang, links);
    forall i | 0 <= i < |lines|
      ensures '\n' !in lines[i]
    {
      assert lines[i] == links[i].text + (" : https://" + lang + (".wikipedia.org" + links[i].href));
    }
    SplitJoin(lines, '\n');
  }

  /** The answer for a result page is its hits' lines joined with
      newlines: a single hit gives its own line, and one more hit extends
      the answer by a newline and that hit's line. */
  lemma SearchResultsJoins(lang: string, links: seq<Link>, link: Link)
    ensures SearchResults(lang, Listing([link])) == ResultLine(lang, link)
    ensures |links| > 0 ==>
      SearchResults(lang, Listing(links + [link])) == SearchResults(lang, Listing(links)) + "\n" + ResultLine(lang, link)
  {
    if |links| > 0 {
      assert ResultLines(lang, links + [link]) == ResultLines(lang, links) + [ResultLine(lang, link)];
      JoinSnoc(ResultLines(lang, links), ResultLine(lang, link), "\n");
    }
  }

  /** A result page with hits can never be mistaken for the no-results
      answer: its first line holds a `:`. */
  lemma ListingIsNotNoResults(lang: string, links: seq<Link>)
    requires |links| > 0
    ensures SearchResults(lang, Listing(links)) != NoResults
  {
    var r := SearchResults(lang, Listing(links));
    var line := ResultLine(lang, links[0]);
    var k := |links[0].text| + 1;
    assert line[k] == ':';
    assert r[k] == ':';
    assert forall j :: 0 <= j < |NoResults| ==> NoResults[j] != ':';
  }

  // ----- add_wikipedia_article: the URL -----

  /** `\w` as an ASCII class: letters, digits and underscore. */
  predicate IsWordChar(c: char) {
    ('a' <= c <= 'z') || ('A' <= c <= 'Z') || ('0' <= c <= '9') || c == '_'
  }

  /** The class `[\w%\-()]` of article-name characters. */
  predicate IsArticleChar(c: char) {
    IsWordChar(c) || c == '%' || c == '-' || c == '(' || c == ')'
  }

  /** `[a-z]{2,3}` */
  predicate LangCode(s: string) {
    2 <= |s| <= 3 && forall i :: 0 <= i < |s| ==> 'a' <= s[i] <= 'z'
  }

  /** `[\w%\-()]+` */
  predicate ArticleName(s: string) {
    |s| > 0 && forall i :: 0 <= i < |s| ==> IsArticleChar(s[i])
  }

  const WikiPath: string := ".wikipedia.org/wiki/"

  function ArticleUrl(lang: string, article: string): string {
    Scheme + lang + WikiPath + article
  }

  /** The whole URL matches `https://[a-z]{2,3}\.wikipedia\.org/wiki/[\w%\-()]+`. */
  ghost predicate MatchesPattern(url: string) {
    exists lang, article :: LangCode(lang) && ArticleName(article) && url == ArticleUrl(lang, article)
  }

  /** After the scheme, a language code of length `n`, the wiki path and
      an article name make up the rest of the URL. */
  predicate LangAt(url: string, n: nat)
    requires StartsWith(url, Scheme)
  {
    var rest := url[|Scheme|..];
    && n + |WikiPath| <= |rest|
    && LangCode(rest[..n])
    && rest[n..n + |WikiPath|] == WikiPath
    && ArticleName(rest[n + |WikiPath|..])
  }

  /** The article-URL check, as a full match of the pattern.  An accepted
      URL ends in an article-name character, never in a newline. */
  predicate ValidArticleUrl(url: string)
    ensures ValidArticleUrl(url) ==> |url| > 0 && IsArticleChar(url[|url| - 1])
  {
    StartsWith(url, Scheme) && (LangAt(url, 2) || LangAt(url, 3))
  }

  /** An accepted URL splits into its language code and article name. */
  lemma UrlDecomposes(url: string) returns (lang: string, article: string)
    requires ValidArticleUrl(url)
    ensures LangCode(lang) && ArticleName(article) && url == ArticleUrl(lang, article)
  {
    if LangAt(url, 2) {
      lang, article := UrlAt(url, 2);
    } else {
      lang, article := UrlAt(url, 3);
    }
  }

  /** The split of a URL whose language code has length `n`. */
  lemma UrlAt(url: string, n: nat) returns (lang: string, article: string)
    requires StartsWith(url, Scheme) && LangAt(url, n)
    ensures LangCode(lang) && ArticleName(article) && url == ArticleUrl(lang, article)
  {
    var rest := url[|Scheme|..];
    lang, article := rest[..n], rest[n + |WikiPath|..];
    assert rest == lang + WikiPath + article by {
      assert rest == rest[..n] + rest[n..n + |WikiPath|] + rest[n + |WikiPath|..];
    }
    assert url == Scheme + rest;
  }

  /** The check accepts exactly the URLs that match the pattern in full. */
  lemma ValidArticleUrlMatches(url: string)
    ensures ValidArticleUrl(url) <==> MatchesPattern(url)
  {
    if ValidArticleUrl(url) {
      var lang, article := UrlDecomposes(url);
    }
    if MatchesPattern(url) {
      var lang, article :| LangCode(lang) && ArticleName(article) && url == ArticleUrl(lang, article);
      UrlParts(lang, article);
    }
  }

  /** A URL built from a language code and an article name passes the check. */
  lemma UrlParts(lang: string, article: string)
    requires LangCode(lang) && ArticleName(article)
    ensures ValidArticleUrl(ArticleUrl(lang, article))
  {
    var url := ArticleUrl(lang, article);
    assert url[..|Scheme|] == Scheme;
    var rest := url[|Scheme|..];
    assert rest == lang + WikiPath + article;
    var n := |lang|;
    assert rest[..n] == lang;
    assert rest[n..n + |WikiPath|] == WikiPath;
    assert rest[n + |WikiPath|..] == article;
    assert LangAt(url, n);
  }

  /** `url.rsplit("/", 1)[-1]` */
  function ArticleId(url: string): string {
    LastSegment(url)
  }

  /** `article_id.replace("_", " ")`: same length, no underscore left, and
      an id without spaces is recovered by turning spaces back into
      underscores. */
  function Title(id: string): (t: string)
    ensures |t| == |id|
    ensures '_' !in t
    ensures ' ' !in id ==> ReplaceChar(t, ' ', '_') == id
  {
    ReplaceCharRemoves(id, '_', ' ');
    ReplaceCharInverse(id, '_', ' ');
    ReplaceChar(id, '_', ' ')
  }

  /** The id of an article URL is exactly its article name. */
  lemma ArticleIdOfUrl(lang: string, article: string)
    requires ArticleName(article)
    ensures ArticleId(ArticleUrl(lang, article)) == article
  {
    var p := Scheme + lang + WikiPath;
    assert ArticleUrl(lang, article) == p + article;
    assert p[|p| - 1] == '/';
    assert '/' !in article by {
      forall i | 0 <= i < |article|
        ensures article[i] != '/'
      {
        assert IsArticleChar(article[i]);
      }
    }
    LastSegmentAfterSlash(p, article);
  }

  /** Every URL the check accepts has a non-empty id made only of
      article-name characters (so without `/`), and its title gives the id
      back. */
  lemma ValidUrlArticleId(url: string)
    requires ValidArticleUrl(url)
    ensures ArticleName(ArticleId(url))
    ensures '/' !in ArticleId(url)
    ensures ReplaceChar(Title(ArticleId(url)), ' ', '_') == ArticleId(url)
  {
    var lang, article := UrlDecomposes(url);
    ArticleIdOfUrl(lang, article);
    assert ' ' !in article by {
      forall i | 0 <= i < |article|
        ensures article[i] != ' '
      {
        assert IsArticleChar(article[i]);
      }
    }
    ReplaceCharInverse(article, '_', ' ');
  }

  /** The check as `re.match` performs it: `$` also matches just before a
      final newline, so one trailing `\n` is let through. */
  predicate UrlMatchesAsWritten(url: string)
    ensures UrlMatchesAsWritten(url) ==> |url| > 0 && (IsArticleChar(url[|url| - 1]) || url[|url| - 1] == '\n')
  {
    || ValidArticleUrl(url)
    || (|url| > 0 && url[|url| - 1] == '\n' && ValidArticleUrl(url[..|url| - 1]))
  }

  /** The check as written admits `https://en.wikipedia.org/wiki/Cat`
      followed by a newline, whose id ends in that newline and so is not an
      article name; the full match refuses it. */
  lemma TrailingNewlineAccepted()
    ensures var url := ArticleUrl("en", "Cat") + "\n";
      && UrlMatchesAsWritten(url)
      && !ValidArticleUrl(url)
      && ArticleId(url) == "Cat\n"
      && !ArticleName(ArticleId(url))
  {
    var url := ArticleUrl("en", "Cat") + "\n";
    assert url[..|url| - 1] == ArticleUrl("en", "Cat");
    UrlParts("en", "Cat");
    TrailingNewlineId();
    TrailingNewlineRefused();
  }

  lemma TrailingNewlineId()
    ensures ArticleId(ArticleUrl("en", "Cat") + "\n") == "Cat\n"
    ensures !ArticleName("Cat\n")
  {
    var p := Scheme + "en" + WikiPath;
    assert ArticleUrl("en", "Cat") + "\n" == p + "Cat\n";
    LastSegmentAfterSlash(p, "Cat\n");
    assert !IsArticleChar("Cat\n"[3]);
  }

  /** The full match refuses the URL with the trailing newline. */
  lemma TrailingNewlineRefused()
    ensures !ValidArticleUrl(ArticleUrl("en", "Cat") + "\n")
  {
    var url := ArticleUrl("en", "Cat") + "\n";
    var rest := url[|Scheme|..];
    assert rest == "en" + WikiPath + "Cat\n";
    assert !LangAt(url, 2) by {
      assert rest[2 + |WikiPath|..] == "Cat\n";
      assert !IsArticleChar("Cat\n"[3]);
    }
    assert !LangAt(url, 3) by {
      assert rest[..3][2] == WikiPath[0];
    }
  }

  // ----- add_wikipedia_article: the infobox -----

  /** An infobox row: the text of its header cell and of its value cell,
      each absent when the row has no such cell; an empty cell still counts. */
  datatype Row = Row(header: Option<string>, value: Option<string>)

  predicate Complete(row: Row) {
    row.header.Some? && row.value.Some?
  }

  /** The `info[key] = value` assignments, one per complete row, in order. */
  function InfoEntries(rows: seq<Row>): (es: seq<(string, string)>)
    ensures forall e :: e in es <==> exists i :: 0 <= i < |rows| && rows[i] == Row(Some(e.0), Some(e.1))
  {
    if |rows| == 0 then []
    else
      var head := if Complete(rows[0]) then [(rows[0].header.value, rows[0].value.value)] else [];
      var tail := InfoEntries(rows[1..]);
      assert forall i :: 1 <= i < |rows| ==> rows[i] == rows[1..][i - 1];
      assert forall i :: 0 <= i < |rows| - 1 ==> rows[1..][i] == rows[i + 1];
      head + tail
  }

  lemma {:induction false} InfoEntriesAppend(a: seq<Row>, b: seq<Row>)
    ensures InfoEntries(a + b) == InfoEntries(a) + InfoEntries(b)
  {
    if |a| == 0 {
      assert a + b == b;
    } else {
      assert (a + b)[1..] == a[1..] + b;
      InfoEntriesAppend(a[1..], b);
    }
  }

  /** The infobox dictionary: a key for every row with both cells, holding
      the value of one such row. */
  function Infobox(rows: seq<Row>): (info: map<string, string>)
    ensures forall k :: k in info <==> exists i :: 0 <= i < |rows| && rows[i].header == Some(k) && rows[i].value.Some?
    ensures forall k :: k in info ==> exists i :: 0 <= i < |rows| && rows[i] == Row(Some(k), Some(info[k]))
  {
    InfoboxKeys(rows);
    InfoboxValues(rows);
    Dict.Assign(InfoEntries(rows))
  }

  lemma InfoboxKeys(rows: seq<Row>)
    ensures var info := Dict.Assign(InfoEntries(rows));
      forall k :: k in info <==> exists i :: 0 <= i < |rows| && rows[i].header == Some(k) && rows[i].value.Some?
  {
    var es := InfoEntries(rows);
    var info := Dict.Assign(es);
    forall k | k in info
      ensures exists i :: 0 <= i < |rows| && rows[i].header == Some(k) && rows[i].value.Some?
    {
      var j :| 0 <= j < |es| && es[j].0 == k;
      assert es[j] in es;
    }
    forall i | 0 <= i < |rows| && Complete(rows[i])
      ensures rows[i].header.value in info
    {
      var e := (rows[i].header.value, rows[i].value.value);
      assert e in es;
      var j :| 0 <= j < |es| && es[j] == e;
    }
  }

  lemma InfoboxValues(rows: seq<Row>)
    ensures var info := Dict.Assign(InfoEntries(rows));
      forall k :: k in info ==> exists i :: 0 <= i < |rows| && rows[i] == Row(Some(k), Some(info[k]))
  {
    var es := InfoEntries(rows);
    var info := Dict.Assign(es);
    forall k | k in info
      ensures exists i :: 0 <= i < |rows| && rows[i] == Row(Some(k), Some(info[k]))
    {
      var j :| 0 <= j < |es| && es[j].0 == k;
      Dict.LastOccurrence(es, j);
      var j' :| j <= j' < |es| && es[j'].0 == k && Dict.IsLastFor(es, j');
      assert es[j'] in es;
    }
  }

  /** Reading one more row: a complete row sets (or overwrites) its key, so
      the last row with a given header wins; any other row changes nothing. */
  lemma InfoboxSnoc(rows: seq<Row>, row: Row)
    ensures Infobox(rows + [row])
         == if Complete(row) then Infobox(rows)[row.header.value := row.value.value] else Infobox(rows)
  {
    InfoEntriesAppend(rows, [row]);
    assert InfoEntries([row]) == (if Complete(row) then [(row.header.value, row.value.value)] else []) + InfoEntries([]);
    if Complete(row) {
      Dict.AssignSnoc(InfoEntries(rows), row.header.value, row.value.value);
    } else {
      assert InfoEntries(rows) + [] == InfoEntries(rows);
    }
  }

  // ----- add_wikipedia_article: the directory -----

  /** An entry of `data`: title, paragraphs and infobox. */
  datatype Article = Article(title: string, paragraphs: seq<string>, info: map<string, string>)

  /** The directory the tools share: `data` keyed by article id, the list
      `article_in_directory`, and whether a vector store has been built. */
  datatype Directory = Directory(data: map<string, Article>, titles: seq<string>, indexed: bool)

  /** The directory the application starts with. */
  const EmptyDirectory: Directory := Directory(map[], [], false)

  /** What the fetched article page yields: the stripped text of every
      paragraph of the content block (none when there is no such block),
      and the infobox rows (none when there is no infobox). */
  datatype Page = Page(paragraphs: seq<string>, rows: seq<Row>)

  /** The directory after the call, and its return value or the message of
      what it raised. */
  datatype Added = Added(dir: Directory, result: Result<string, string>)

  const NoContent: string := "No article content found."
  const ListPrefix: string := "Articles in directory: "

  /** `add_wikipedia_article(url)`, with the URL check as a full match of
      the pattern.  `page` is the outcome of fetching the URL,
      `indexFailure` the message of the exception building the vector store
      raised, if it did. */
  function AddArticle(dir: Directory, url: string, page: Result<Page, string>, indexFailure: Option<string>): (r: Added)
    ensures r.result.Success? ==> r.dir.indexed && |r.dir.titles| == |dir.titles| + 1
    ensures r.result.Failure? ==> r.dir.titles == dir.titles && r.dir.indexed == dir.indexed
    ensures page.Failure? ==> r.dir == dir && r.result.Failure?
    ensures dir.titles <= r.dir.titles && |r.dir.titles| <= |dir.titles| + 1
    ensures r.dir.data.Keys <= dir.data.Keys + {ArticleId(url)}
  {
    if !ValidArticleUrl(url) then Added(dir, Failure("Invalid Wikipedia URL: " + url))
    else FetchAndStore(dir, url, page, indexFailure)
  }

  /** `add_wikipedia_article(url)` with the check as `re.match` performs it,
      letting one trailing newline through.  It behaves as `AddArticle`
      on every URL that does not end in a newline. */
  function AddArticleAsWritten(dir: Directory, url: string, page: Result<Page, string>, indexFailure: Option<string>): (r: Added)
    ensures (|url| == 0 || url[|url| - 1] != '\n') ==> r == AddArticle(dir, url, page, indexFailure)
    ensures r.result.Failure? ==> r.dir.titles == dir.titles && r.dir.indexed == dir.indexed
    ensures page.Failure? ==> r.dir == dir && r.result.Failure?
    ensures r.dir.data.Keys <= dir.data.Keys + {ArticleId(url)}
  {
    if !UrlMatchesAsWritten(url) then Added(dir, Failure("Invalid Wikipedia URL: " + url))
    else FetchAndStore(dir, url, page, indexFailure)
  }

  /** What follows an accepted URL: the fetch, the paragraphs, the entry in
      `data`, the vector store and the list of titles. */
  function FetchAndStore(dir: Directory, url: string, page: Result<Page, string>, indexFailure: Option<string>): (r: Added)
    ensures r.result.Success? ==> r.dir.indexed && |r.dir.titles| == |dir.titles| + 1
    ensures r.result.Failure? ==> r.dir.titles == dir.titles && r.dir.indexed == dir.indexed
    ensures page.Failure? ==> r == Added(dir, Failure(page.error))
    ensures dir.titles <= r.dir.titles && |r.dir.titles| <= |dir.titles| + 1
    ensures r.dir.data.Keys <= dir.data.Keys + {ArticleId(url)}
  {
    match page
    case Failure(e) => Added(dir, Failure(e))
    case Success(p) =>
      var paragraphs := NonEmpty(p.paragraphs);
      if |paragraphs| == 0 then Added(dir, Failure(NoContent))
      else
        var id := ArticleId(url);
        var title := Title(id);
        var data := dir.data[id := Article(title, paragraphs, Infobox(p.rows))];
        match indexFailure
        case Some(e) => Added(dir.(data := data), Failure(e))
        case None =>
          var titles := dir.titles + [title];
          Added(Directory(data, titles, true), Success(ListPrefix + Join(titles, ", ")))
  }

  /** An invalid URL is refused before anything is fetched or stored. */
  lemma AddArticleRejectsInvalidUrl(dir: Directory, url: string, page: Result<Page, string>, indexFailure: Option<string>)
    requires !MatchesPattern(url)
    ensures AddArticle(dir, url, page, indexFailure) == Added(dir, Failure("Invalid Wikipedia URL: " + url))
  {
    ValidArticleUrlMatches(url);
  }

  /** The check as written refuses a URL unless it matches the pattern,
      possibly after dropping one final newline; a refused URL changes
      nothing. */
  lemma AsWrittenRejectsInvalidUrl(dir: Directory, url: string, page: Result<Page, string>, indexFailure: Option<string>)
    requires !MatchesPattern(url)
    requires |url| == 0 || url[|url| - 1] != '\n' || !MatchesPattern(url[..|url| - 1])
    ensures AddArticleAsWritten(dir, url, page, indexFailure) == Added(dir, Failure("Invalid Wikipedia URL: " + url))
  {
    ValidArticleUrlMatches(url);
    if |url| > 0 {
      ValidArticleUrlMatches(url[..|url| - 1]);
    }
  }

  /** The rejected-URL scenario: a non-Wikipedia address is refused. */
  lemma NonWikipediaUrlRejected(dir: Directory, page: Result<Page, string>, indexFailure: Option<string>)
    ensures AddArticle(dir, "https://google.com/not_wiki", page, indexFailure).result.Failure?
    ensures AddArticle(dir, "https://google.com/not_wiki", page, indexFailure).dir == dir
  {
    var url := "https://google.com/not_wiki";
    assert |url[|Scheme|..]| == 19;
  }

  /** A page without any non-empty paragraph is refused and nothing is
      stored. */
  lemma AddArticleNeedsContent(dir: Directory, url: string, p: Page, indexFailure: Option<string>)
    requires ValidArticleUrl(url)
    requires forall i :: 0 <= i < |p.paragraphs| ==> p.paragraphs[i] == ""
    ensures AddArticle(dir, url, Success(p), indexFailure) == Added(dir, Failure(NoContent))
  {
    NonEmptyNone(p.paragraphs);
  }

  /** A stored article: its id is the URL's last segment, it holds the
      non-empty paragraphs and the infobox, every other entry of `data` is
      unchanged, its title is appended to the list even when already there,
      and the list is returned joined with `, `. */
  lemma AddArticleStores(dir: Directory, url: string, p: Page)
    requires ValidArticleUrl(url)
    requires exists i :: 0 <= i < |p.paragraphs| && p.paragraphs[i] != ""
    ensures var r := AddArticle(dir, url, Success(p), None);
      var id := ArticleId(url);
      && r.dir.data.Keys == dir.data.Keys + {id}
      && r.dir.data[id] == Article(Title(id), NonEmpty(p.paragraphs), Infobox(p.rows))
      && (forall k :: k in dir.data && k != id ==> r.dir.data[k] == dir.data[k])
      && r.dir.titles == dir.titles + [Title(id)]
      && r.dir.indexed
      && r.result == Success("Articles in directory: " + Join(r.dir.titles, ", "))
  {
    var i :| 0 <= i < |p.paragraphs| && p.paragraphs[i] != "";
    assert p.paragraphs[i] in NonEmpty(p.paragraphs);
  }

  /** The returned list grows by `, ` and the new title. */
  lemma AddArticleSummaryExtends(dir: Directory, url: string, p: Page)
    requires ValidArticleUrl(url)
    requires exists i :: 0 <= i < |p.paragraphs| && p.paragraphs[i] != ""
    requires |dir.titles| > 0
    ensures AddArticle(dir, url, Success(p), None).result
         == Success(ListPrefix + (Join(dir.titles, ", ") + ", " + Title(ArticleId(url))))
  {
    var t := Title(ArticleId(url));
    var i :| 0 <= i < |p.paragraphs| && p.paragraphs[i] != "";
    assert p.paragraphs[i] in NonEmpty(p.paragraphs);
    assert AddArticle(dir, url, Success(p), None).result == Success(ListPrefix + Join(dir.titles + [t], ", "));
    JoinSnoc(dir.titles, t, ", ");
  }

  /** When building the vector store fails, the article is already in
      `data` but its title is not listed and the old store remains. */
  lemma AddArticleIndexFailure(dir: Directory, url: string, p: Page, e: string)
    requires ValidArticleUrl(url)
    requires exists i :: 0 <= i < |p.paragraphs| && p.paragraphs[i] != ""
    ensures var r := AddArticle(dir, url, Success(p), Some(e));
      && r.result == Failure(e)
      && ArticleId(url) in r.dir.data
      && r.dir.titles == dir.titles
      && r.dir.indexed == dir.indexed
  {
    var i :| 0 <= i < |p.paragraphs| && p.paragraphs[i] != "";
    assert p.paragraphs[i] in NonEmpty(p.paragraphs);
  }

  /** What the tools keep true of the directory whatever URL they are
      given: each key is free of `/` and its entry carries the title derived
      from it, each listed title is the title of some stored article, and a
      vector store exists exactly when some title is listed. */
  ghost predicate Coherent(dir: Directory) {
    && (forall k :: k in dir.data ==> '/' !in k && dir.data[k].title == Title(k))
    && (forall i :: 0 <= i < |dir.titles| ==> Stored(dir.data, dir.titles[i]))
    && (dir.indexed <==> |dir.titles| > 0)
  }

  /** A coherent directory whose every key is an article name: what the
      tools keep when only URLs matching the pattern in full are accepted. */
  ghost predicate Consistent(dir: Directory) {
    && Coherent(dir)
    && (forall k :: k in dir.data ==> ArticleName(k))
  }

  /** Some stored article has this title. */
  ghost predicate Stored(data: map<string, Article>, title: string) {
    exists k :: k in data && Title(k) == title
  }

  lemma EmptyDirectoryConsistent()
    ensures Consistent(EmptyDirectory)
  {
  }

  /** Adding an article, successfully or not, keeps the directory consistent. */
  lemma AddArticlePreservesConsistency(
    dir: Directory, url: string, page: Result<Page, string>, indexFailure: Option<string>)
    requires Consistent(dir)
    ensures Consistent(AddArticle(dir, url, page, indexFailure).dir)
  {
    if ValidArticleUrl(url) {
      ValidUrlArticleId(url);
      StoreKeepsCoherence(dir, url, page, indexFailure);
    }
  }

  /** With the check as written, adding an article keeps the directory
      coherent, but not necessarily consistent: see `NewlineIdStored`. */
  lemma AsWrittenPreservesCoherence(
    dir: Directory, url: string, page: Result<Page, string>, indexFailure: Option<string>)
    requires Coherent(dir)
    ensures Coherent(AddArticleAsWritten(dir, url, page, indexFailure).dir)
  {
    if UrlMatchesAsWritten(url) {
      StoreKeepsCoherence(dir, url, page, indexFailure);
    }
  }

  /** Everything after the URL check keeps the directory coherent. */
  lemma StoreKeepsCoherence(
    dir: Directory, url: string, page: Result<Page, string>, indexFailure: Option<string>)
    requires Coherent(dir)
    ensures Coherent(FetchAndStore(dir, url, page, indexFailure).dir)
  {
    if page.Success? && |NonEmpty(page.value.paragraphs)| > 0 {
      var id := ArticleId(url);
      var article := Article(Title(id), NonEmpty(page.value.paragraphs), Infobox(page.value.rows));
      var data := dir.data[id := article];
      EntryKeepsCoherence(dir, id, article);
      if indexFailure.None? {
        ListKeepsCoherence(dir.(data := data), id);
      }
    }
  }

  /** Storing an entry under a key without `/`, with the title derived
      from it, keeps the directory coherent. */
  lemma EntryKeepsCoherence(dir: Directory, id: string, article: Article)
    requires Coherent(dir)
    requires '/' !in id && article.title == Title(id)
    ensures Coherent(dir.(data := dir.data[id := article]))
  {
    var data := dir.data[id := article];
    forall i | 0 <= i < |dir.titles|
      ensures Stored(data, dir.titles[i])
    {
      assert Stored(dir.data, dir.titles[i]);
      var k :| k in dir.data && Title(k) == dir.titles[i];
      assert k in data;
    }
  }

  /** Listing the title of a stored article and marking the store built
      keeps the directory coherent. */
  lemma ListKeepsCoherence(dir: Directory, id: string)
    requires Coherent(dir)
    requires id in dir.data
    ensures Coherent(Directory(dir.data, dir.titles + [Title(id)], true))
  {
    var titles := dir.titles + [Title(id)];
    forall i | 0 <= i < |titles|
      ensures Stored(dir.data, titles[i])
    {
      if i < |dir.titles| {
        assert titles[i] == dir.titles[i];
      } else {
        assert Title(id) == titles[i] && id in dir.data;
      }
    }
  }

  /** The check as written lets the article URL of `Cat` with a trailing
      newline through: the article is stored under the id `Cat` plus a
      newline, which is not an article name, so the directory is no longer
      consistent; the full match refuses the URL and changes nothing. */
  lemma NewlineIdStored(p: Page)
    requires exists i :: 0 <= i < |p.paragraphs| && p.paragraphs[i] != ""
    ensures var url := ArticleUrl("en", "Cat") + "\n";
      var r := AddArticleAsWritten(EmptyDirectory, url, Success(p), None);
      && r.result.Success?
      && "Cat\n" in r.dir.data
      && !Consistent(r.dir)
      && AddArticle(EmptyDirectory, url, Success(p), None) == Added(EmptyDirectory, Failure("Invalid Wikipedia URL: " + url))
  {
    var url := ArticleUrl("en", "Cat") + "\n";
    TrailingNewlineAccepted();
    var i :| 0 <= i < |p.paragraphs| && p.paragraphs[i] != "";
    assert p.paragraphs[i] in NonEmpty(p.paragraphs);
    var r := AddArticleAsWritten(EmptyDirectory, url, Success(p), None);
    assert ArticleId(url) in r.dir.data;
  }

  // ----- searh_in_article -----

  const NoStore: string := "No articles available. Please add one first."

  /** `searh_in_article(query)`: refused while no vector store exists,
      otherwise the contents the retriever returns for the query, in
      retrieval order, joined with spaces. */
  function SearchInArticle(dir: Directory, retrieved: seq<string>): (r: Result<string, string>)
    ensures r.Failure? <==> !dir.indexed
    ensures r.Failure? ==> r.error == NoStore
    ensures r.Success? && |retrieved| > 0 ==> StartsWith(r.value, retrieved[0])
  {
    if !dir.indexed then Failure(NoStore)
    else
      JoinStartsWith(retrieved, " ");
      Success(Join(retrieved, " "))
  }

  /** With a store built, the answer is the retrieved passages joined with
      single spaces: nothing for no passage, the passage itself for one,
      and one more passage extends the answer by a space and that passage. */
  lemma SearchInArticleJoins(dir: Directory, retrieved: seq<string>, x: string)
    requires dir.indexed
    ensures SearchInArticle(dir, []) == Success("")
    ensures SearchInArticle(dir, [x]) == Success(x)
    ensures |retrieved| > 0 ==>
      SearchInArticle(dir, retrieved + [x]) == Success(SearchInArticle(dir, retrieved).value + " " + x)
  {
    if |retrieved| > 0 {
      JoinSnoc(retrieved, x, " ");
    }
  }

  /** In a consistent directory, searching fails exactly when no article
      is listed; after an article is added, searching succeeds. */
  lemma SearchAvailableAfterAdd(
    dir: Directory, url: string, page: Result<Page, string>, indexFailure: Option<string>, retrieved: seq<string>)
    requires Consistent(dir)
    ensures SearchInArticle(dir, retrieved).Failure? <==> |dir.titles| == 0
    ensures AddArticle(dir, url, page, indexFailure).result.Success? ==>
      SearchInArticle(AddArticle(dir, url, page, indexFailure).dir, retrieved).Success?
  {
  }
}

=== FILE: text.dfy ===
/** The Python string operations the core relies on: `str.strip`,
    `str.startswith`, `str.replace` of one character, `"".join` and
    `str.rsplit("/", 1)[-1]`; `Split` only reads a newline-joined answer
    back into its lines. */
module Text {

  /** Python's `str.isspace` for a single character. */
  predicate IsSpace(c: char) {
    || ('\t' <= c <= '\r')
    || ('\U{1C}' <= c <= '\U{1F}')
    || c == ' ' || c == '\U{85}' || c == '\U{A0}' || c == '\U{1680}'
    || ('\U{2000}' <= c <= '\U{200A}')
    || c == '\U{2028}' || c == '\U{2029}' || c == '\U{202F}'
    || c == '\U{205F}' || c == '\U{3000}'
  }

  predicate AllSpace(s: string) {
    forall j :: 0 <= j < |s| ==> IsSpace(s[j])
  }

  predicate StartsWith(s: string, prefix: string) {
    |prefix| <= |s| && s[..|prefix|] == prefix
  }

  lemma AllSpaceAppend(a: string, b: string)
    requires AllSpace(a) && AllSpace(b)
    ensures AllSpace(a + b)
  {
    forall j | 0 <= j < |a + b|
      ensures IsSpace((a + b)[j])
    {
      if j < |a| {
        assert (a + b)[j] == a[j];
      } else {
        assert (a + b)[j] == b[j - |a|];
      }
    }
  }

  /** Leading whitespace removed: a suffix of `s` that begins with a
      non-space character (or is empty), and only spaces were dropped. */
  function StripLeft(s: string): (r: string)
    ensures |r| <= |s| && r == s[|s| - |r|..]
    ensures AllSpace(s[..|s| - |r|])
    ensures r == [] || !IsSpace(r[0])
  {
    if |s| > 0 && IsSpace(s[0]) then
      var t := s[1..];
      var r := StripLeft(t);
      StripLeftStep(s, t, r);
      r
    else s
  }

  /** A space in front of `t == s[1..]` joins the whitespace prefix dropped from it. */
  lemma StripLeftStep(s: string, t: string, r: string)
    requires |s| > 0 && IsSpace(s[0]) && t == s[1..]
    requires |r| <= |t| && r == t[|t| - |r|..] && AllSpace(t[..|t| - |r|])
    ensures r == s[|s| - |r|..] && AllSpace(s[..|s| - |r|])
  {
    assert s[..|s| - |r|] == [s[0]] + t[..|t| - |r|];
    AllSpaceAppend([s[0]], t[..|t| - |r|]);
  }

  /** Trailing whitespace removed: a prefix of `s` that ends with a
      non-space character (or is empty), and only spaces were dropped. */
  function StripRight(s: string): (r: string)
    ensures |r| <= |s| && r == s[..|r|]
    ensures AllSpace(s[|r|..])
    ensures r == [] || !IsSpace(r[|r| - 1])
  {
    if |s| > 0 && IsSpace(s[|s| - 1]) then
      var p := s[..|s| - 1];
      var r := StripRight(p);
      StripRightStep(s, p, r);
      r
    else s
  }

  /** A space after `p == s[..|s| - 1]` joins the whitespace suffix dropped from it. */
  lemma StripRightStep(s: string, p: string, r: string)
    requires |s| > 0 && IsSpace(s[|s| - 1]) && p == s[..|s| - 1]
    requires |r| <= |p| && r == p[..|r|] && AllSpace(p[|r|..])
    ensures r == s[..|r|] && AllSpace(s[|r|..])
  {
    assert s[|r|..] == p[|r|..] + [s[|s| - 1]];
    assert p[..|r|] == s[..|r|];
    AllSpaceAppend(p[|r|..], [s[|s| - 1]]);
  }

  /** Python's `str.strip()` with no argument: neither starting nor ending
      with whitespace, and empty exactly when `s` is all whitespace. */
  function Strip(s: string): (r: string)
    ensures r == [] || (!IsSpace(r[0]) && !IsSpace(r[|r| - 1]))
    ensures r == [] <==> AllSpace(s)
  {
    var l := StripLeft(s);
    var r := StripRight(l);
    TrimmedBothEnds(s, l, r);
    r
  }

  /** `Strip(s)` is `s` itself with only a whitespace prefix and a
      whitespace suffix taken off.  With the ends of `Strip(s)` non-space,
      this fixes the result: the prefix is all of the leading whitespace. */
  lemma StripIsInfix(s: string)
    ensures exists i :: PaddedAt(s, Strip(s), i)
  {
    var l := StripLeft(s);
    var r := StripRight(l);
    TrimmedIsInfix(s, l, r);
    assert Strip(s) == r;
  }

  /** `s` is `r` with the whitespace `s[..i]` before it and whitespace after it. */
  predicate PaddedAt(s: string, r: string, i: int) {
    0 <= i <= |s| - |r| && r == s[i..i + |r|] && AllSpace(s[..i]) && AllSpace(s[i + |r|..])
  }

  /** A whitespace prefix taken off `s`, then a whitespace suffix taken off
      the rest, leaves the infix of `s` starting where the prefix ends. */
  lemma TrimmedIsInfix(s: string, l: string, r: string)
    requires |l| <= |s| && l == s[|s| - |l|..] && AllSpace(s[..|s| - |l|])
    requires |r| <= |l| && r == l[..|r|] && AllSpace(l[|r|..])
    ensures PaddedAt(s, r, |s| - |l|)
  {
    var i := |s| - |l|;
    assert s[i..i + |r|] == l[..|r|];
    assert s[i + |r|..] == l[|r|..];
  }

  /** Text that neither starts nor ends with whitespace is its own strip. */
  lemma StripUnpadded(s: string)
    requires |s| > 0 && !IsSpace(s[0]) && !IsSpace(s[|s| - 1])
    ensures Strip(s) == s
  {
    assert StripLeft(s) == s;
  }

  /** `l` is `s` without a whitespace prefix and starts with a non-space,
      and `r` is `l` without a whitespace suffix and ends with a non-space:
      then `r` is empty exactly when `s` is all whitespace. */
  lemma TrimmedBothEnds(s: string, l: string, r: string)
    requires |l| <= |s| && l == s[|s| - |l|..] && AllSpace(s[..|s| - |l|])
    requires l == [] || !IsSpace(l[0])
    requires |r| <= |l| && r == l[..|r|] && AllSpace(l[|r|..])
    requires r == [] || !IsSpace(r[|r| - 1])
    ensures r == [] || (!IsSpace(r[0]) && !IsSpace(r[|r| - 1]))
    ensures r == [] <==> AllSpace(s)
  {
    var k := |s| - |l|;
    if r != [] {
      assert r[0] == l[0] == s[k];
    } else {
      assert l[|r|..] == s[k..];
      AllSpaceSplit(s, k);
    }
  }

  /** A whitespace prefix followed by a whitespace rest is all whitespace. */
  lemma AllSpaceSplit(s: string, k: nat)
    requires k <= |s|
    requires AllSpace(s[..k]) && AllSpace(s[k..])
    ensures AllSpace(s)
  {
    assert s == s[..k] + s[k..];
    AllSpaceAppend(s[..k], s[k..]);
  }

  /** The first character of `s` that is not whitespace exists and is `c`. */
  ghost predicate FirstNonSpaceIs(s: string, c: char) {
    exists i :: 0 <= i < |s| && s[i] == c && AllSpace(s[..i])
  }

  /** `s.strip().startswith(c)` holds exactly when the first non-space
      character of `s` is `c`, for any non-space `c`. */
  lemma StripStartsWith(s: string, c: char)
    requires !IsSpace(c)
    ensures StartsWith(Strip(s), [c]) <==> FirstNonSpaceIs(s, c)
  {
    if StartsWith(Strip(s), [c]) {
      StrippedStart(s, c);
    }
    if FirstNonSpaceIs(s, c) {
      var i :| 0 <= i < |s| && s[i] == c && AllSpace(s[..i]);
      FirstNonSpaceKept(s, c, i);
    }
  }

  lemma StrippedStart(s: string, c: char)
    requires StartsWith(Strip(s), [c])
    ensures FirstNonSpaceIs(s, c)
  {
    var l := StripLeft(s);
    var k := |s| - |l|;
    var r := StripRight(l);
    assert r[0] == l[0] == s[k];
    assert s[k] == c && AllSpace(s[..k]);
  }

  lemma FirstNonSpaceKept(s: string, c: char, i: nat)
    requires !IsSpace(c)
    requires i < |s| && s[i] == c && AllSpace(s[..i])
    ensures StartsWith(Strip(s), [c])
  {
    var l := StripLeft(s);
    var k := |s| - |l|;
    var r := StripRight(l);
    SpacePrefix(s, i);
    SpacePrefix(s, k);
    assert k == i;
    assert l[0] == c;
    SpaceSuffix(l, |r|);
    assert r[0] == l[0];
    assert Strip(s)[..1] == [c];
  }

  lemma SpacePrefix(s: string, n: nat)
    requires n <= |s| && AllSpace(s[..n])
    ensures forall m :: 0 <= m < n ==> IsSpace(s[m])
  {
    forall m | 0 <= m < n
      ensures IsSpace(s[m])
    {
      assert s[..n][m] == s[m];
    }
  }

  lemma SpaceSuffix(s: string, n: nat)
    requires n <= |s| && AllSpace(s[n..])
    ensures forall m :: n <= m < |s| ==> IsSpace(s[m])
  {
    forall m | n <= m < |s|
      ensures IsSpace(s[m])
    {
      assert s[n..][m - n] == s[m];
    }
  }

  /** `s.replace(a, b)` for single characters `a` and `b`. */
  function ReplaceChar(s: string, a: char, b: char): (r: string)
    ensures |r| == |s|
    ensures forall i :: 0 <= i < |s| ==> r[i] == (if s[i] == a then b else s[i])
  {
    if |s| == 0 then "" else [if s[0] == a then b else s[0]] + ReplaceChar(s[1..], a, b)
  }

  /** After replacing `a` by a different `b`, no `a` is left. */
  lemma ReplaceCharRemoves(s: string, a: char, b: char)
    requires a != b
    ensures a !in ReplaceChar(s, a, b)
  {
    var r := ReplaceChar(s, a, b);
    forall i | 0 <= i < |r|
      ensures r[i] != a
    {
    }
  }

  /** Replacing `a` by `b` is undone by replacing `b` by `a`, provided
      `s` had no `b` of its own. */
  lemma ReplaceCharInverse(s: string, a: char, b: char)
    ensures b !in s ==> ReplaceChar(ReplaceChar(s, a, b), b, a) == s
  {
    if b !in s {
      var r := ReplaceChar(ReplaceChar(s, a, b), b, a);
      forall i | 0 <= i < |s|
        ensures r[i] == s[i]
      {
        assert s[i] != b;
      }
    }
  }

  /** `"".join(ss)`. */
  function Concat(ss: seq<string>): string {
    if |ss| == 0 then "" else ss[0] + Concat(ss[1..])
  }

  lemma {:induction false} ConcatAppend(a: seq<string>, b: seq<string>)
    ensures Concat(a + b) == Concat(a) + Concat(b)
  {
    if |a| == 0 {
      assert a + b == b;
    } else {
      assert (a + b)[1..] == a[1..] + b;
      ConcatAppend(a[1..], b);
    }
  }

  /** The non-empty elements of `ss`, in order: what survives the
      `if chunk.content:` filter. */
  function NonEmpty(ss: seq<string>): (r: seq<string>)
    ensures |r| <= |ss|
    ensures forall k :: 0 <= k < |r| ==> r[k] != ""
    ensures forall x :: x in r <==> x in ss && x != ""
  {
    if |ss| == 0 then []
    else (if ss[0] == "" then [] else [ss[0]]) + NonEmpty(ss[1..])
  }

  /** Nothing survives the filter exactly when every element is empty. */
  lemma {:induction false} NonEmptyNone(ss: seq<string>)
    ensures NonEmpty(ss) == [] <==> forall i :: 0 <= i < |ss| ==> ss[i] == ""
  {
    if |ss| > 0 {
      NonEmptyNone(ss[1..]);
      assert forall i :: 1 <= i < |ss| ==> ss[i] == ss[1..][i - 1];
    }
  }

  /** Filtering distributes over concatenation, so it keeps the order. */
  lemma {:induction false} NonEmptyAppend(a: seq<string>, b: seq<string>)
    ensures NonEmpty(a + b) == NonEmpty(a) + NonEmpty(b)
  {
    if |a| == 0 {
      assert a + b == b;
    } else {
      assert (a + b)[1..] == a[1..] + b;
      NonEmptyAppend(a[1..], b);
    }
  }

  /** Dropping empty strings does not change their concatenation. */
  lemma {:induction false} ConcatNonEmpty(ss: seq<string>)
    ensures Concat(NonEmpty(ss)) == Concat(ss)
  {
    if |ss| > 0 {
      var head := if ss[0] == "" then [] else [ss[0]];
      ConcatAppend(head, NonEmpty(ss[1..]));
      ConcatNonEmpty(ss[1..]);
    }
  }

  /** `sep.join(xs)`. */
  function Join(xs: seq<string>, sep: string): string {
    if |xs| == 0 then ""
    else if |xs| == 1 then xs[0]
    else xs[0] + sep + Join(xs[1..], sep)
  }

  /** Joining one more element extends the joined text by the separator
      and that element. */
  lemma {:induction false} JoinSnoc(xs: seq<string>, x: string, sep: string)
    requires |xs| > 0
    ensures Join(xs + [x], sep) == Join(xs, sep) + sep + x
  {
    if |xs| == 1 {
      assert (xs + [x])[1..] == [x];
    } else {
      assert (xs + [x])[1..] == xs[1..] + [x];
      JoinSnoc(xs[1..], x, sep);
    }
  }

  /** The joined text begins with the first element, if there is one. */
  lemma {:induction false} JoinStartsWith(xs: seq<string>, sep: string)
    ensures |xs| > 0 ==> StartsWith(Join(xs, sep), xs[0])
  {
    if |xs| > 1 {
      assert Join(xs, sep) == xs[0] + (sep + Join(xs[1..], sep));
    }
  }

  /** Position of the first `c` in `s`. */
  function IndexOf(s: string, c: char): (i: nat)
    requires c in s
    ensures i < |s| && s[i] == c && c !in s[..i]
  {
    if s[0] == c then 0
    else
      assert c in s[1..] by { var j :| 0 <= j < |s| && s[j] == c; assert s[1..][j - 1] == c; }
      1 + IndexOf(s[1..], c)
  }

  lemma NotInPrefix(s: string, c: char, n: nat)
    requires n <= |s| && c !in s[..n]
    ensures forall m :: 0 <= m < n ==> s[m] != c
  {
    forall m | 0 <= m < n
      ensures s[m] != c
    {
      assert s[..n][m] == s[m];
    }
  }

  lemma IndexOfUnique(s: string, c: char, i: nat)
    requires i < |s| && s[i] == c && c !in s[..i]
    ensures IndexOf(s, c) == i
  {
    var j := IndexOf(s, c);
    NotInPrefix(s, c, i);
    NotInPrefix(s, c, j);
  }

  /** `s.split(c)` for a single-character separator. */
  function Split(s: string, c: char): (parts: seq<string>)
    ensures |parts| > 0
    ensures forall k :: 0 <= k < |parts| ==> c !in parts[k]
    decreases |s|
  {
    if c !in s then [s]
    else
      var i := IndexOf(s, c);
      [s[..i]] + Split(s[i + 1..], c)
  }

  /** Splitting on `c` undoes joining with `c` when no element holds `c`. */
  lemma {:induction false} SplitJoin(xs: seq<string>, c: char)
    requires |xs| > 0
    requires forall k :: 0 <= k < |xs| ==> c !in xs[k]
    ensures Split(Join(xs, [c]), c) == xs
  {
    if |xs| > 1 {
      var rest := Join(xs[1..], [c]);
      var s := xs[0] + [c] + rest;
      assert Join(xs, [c]) == s;
      var i := |xs[0]|;
      assert s[..i] == xs[0];
      IndexOfUnique(s, c, i);
      assert s[i + 1..] == rest;
      SplitJoin(xs[1..], c);
    }
  }

  /** `s.rsplit("/", 1)[-1]`: the part of `s` after its last `/`, or all of
      `s` when it holds none. */
  function LastSegment(s: string): (r: string)
    ensures '/' !in r
    ensures |r| <= |s| && r == s[|s| - |r|..]
    ensures |r| == |s| || s[|s| - |r| - 1] == '/'
  {
    if |s| == 0 then ""
    else if s[|s| - 1] == '/' then ""
    else LastSegment(s[..|s| - 1]) + [s[|s| - 1]]
  }

  /** The last segment of `p + a`, with `p` ending in `/` and `a` free of
      `/`, is exactly `a`. */
  lemma LastSegmentAfterSlash(p: string, a: string)
    requires |p| > 0 && p[|p| - 1] == '/'
    requires '/' !in a
    ensures LastSegment(p + a) == a
  {
    var s := p + a;
    var r := LastSegment(s);
    assert forall m :: |s| - |r| <= m < |s| ==> s[m] != '/' by {
      forall m | |s| - |r| <= m < |s|
        ensures s[m] != '/'
      {
        assert r[m - (|s| - |r|)] == s[m];
      }
    }
    assert forall m :: |p| <= m < |s| ==> s[m] != '/' by {
      forall m | |p| <= m < |s|
        ensures s[m] != '/'
      {
        assert a[m - |p|] == s[m];
      }
    }
    assert s[|p| - 1] == '/';
    assert |r| == |a|;
    assert r == s[|p|..] == a;
  }
}

=== FILE: wrappers.dfy ===
/** Optional values and results: the model's stand-in for Python's `None`
    and for raised exceptions. */
module Wrappers {

  /** A value that may be absent. */
  datatype Option<+T> = None | Some(value: T)

  /** Either a value or the message of the exception that replaced it. */
  datatype Result<+R, +E> = Success(value: R) | Failure(error: E)
}
